=== FILE: README.md ===
# Math Kidz site logic in Dafny

The math-tuition site is a marketing front end with four pieces of real logic. This project models them as pure functions over immutable data and proves what they promise.

- **The contact form** (`src/ContactForm.jsx`):
  - sanitising each field: trim, drop `<` and `>`, cut to 1000 characters;
  - the e-mail check: a fixed ASCII pattern and at most 254 characters;
  - the additive per-field validation;
  - the field-change handler;
  - the submit handler as a transition over the form state. It takes the current time and the backend's outcome as inputs, and it includes the 30-second cooldown between successful submissions.
- **The contact API route** (`app/api/contact/route.js`):
  - the same sanitiser and e-mail check;
  - four checks, each returning 400 on failure, so only the first failure is reported;
  - forwarding of the sanitised message;
  - mapping of the backend's answer, with any exception becoming a 500.
- **The chat widget** (`src/WhatsAppChat.jsx`):
  - canned replies chosen by the first of ten keyword groups that occurs in the lower-cased message;
  - the transcript the send handler builds.
- **The enrolment form** (`src/App.jsx`):
  - name, grade and a ten-digit phone;
  - its change handler;
  - the success and failure branches of its submit handler.

Modules:

- `JsText` (`js_text.dfy`) holds the JavaScript string primitives the code relies on:
  - `trim`, with ECMAScript's exact whitespace set;
  - ASCII `toLowerCase`;
  - `includes`;
  - decimal formatting of an integer.
- `Outcomes` (`outcomes.dfy`) models the backend's JSON reply and the truthiness of `result.message || fallback`.
- `Sanitizer` and `Email` are defined once. The client and the route both import them, since the two source files carry identical copies.
- `Email` recognises addresses with a hand-written automaton. It proves that automaton equivalent to a declarative "there is an `@` and a final dot that split the address correctly" predicate.
- `ContactForm`, `ContactRoute`, `WhatsAppChat` and `EnrolmentForm` follow the four source files.

Text is kept exactly as in the source. In `WhatsAppChat.jsx`, the waving-hand and smiling-face emoji are stored as mis-decoded character sequences (`U+00F0 U+0178 U+2018 U+2039` and `U+00F0 U+0178 U+02DC U+0160`). The model keeps those sequences as they are.

## Model

| member | source | states |
|---|---|---|
| JsText.Trim | src/ContactForm.jsx:23 | The result is the input with a whitespace-only prefix and a whitespace-only suffix removed, and it neither starts nor ends with whitespace, using ECMAScript's WhiteSpace and LineTerminator set |
| JsText.TrimUnique | src/ContactForm.jsx:23 | Any string cut out of `s` that way equals `Trim(s)`, so the specification above determines `trim` completely |
| JsText.TrimEmptyIff | src/WhatsAppChat.jsx:90 | `!s.trim()` holds exactly when every character of `s` is whitespace |
| JsText.ToLower | src/WhatsAppChat.jsx:22 | Lower-casing keeps the length and maps every character through ASCII lower-casing |
| JsText.ToLowerIdempotent | src/WhatsAppChat.jsx:22 | Lower-casing an already lower-cased message changes nothing |
| JsText.Includes | src/WhatsAppChat.jsx:24 | `s.includes(k)` is true exactly when `k` occurs in `s` at some index |
| JsText.NatToDecimal | src/ContactForm.jsx:205 | The number in the template string is written as at least one ASCII digit with no leading zero unless it is 0, and those digits denote exactly `n` |
| JsText.NatToDecimalUnique | src/ContactForm.jsx:205 | Any digit string without a leading zero that denotes `n` is `NatToDecimal(n)`, so the contract above determines the text completely |
| Outcomes.OrElse | app/api/contact/route.js:84 | `result.message` or its fallback: the message when it is a non-empty string, the fallback otherwise |
| Sanitizer.StripBrackets | src/ContactForm.jsx:24 | The result holds no `<` or `>` and is no longer than the input |
| Sanitizer.StripBracketsCounts | src/ContactForm.jsx:24 | Every character other than a bracket keeps its number of occurrences, and brackets occur zero times |
| Sanitizer.StripBracketsAppend | src/ContactForm.jsx:24 | Removing brackets distributes over concatenation, so the order of the remaining characters is kept |
| Sanitizer.StripBracketsFixes | src/ContactForm.jsx:24 | Bracket-free text is left unchanged |
| Sanitizer.Sanitize | src/ContactForm.jsx:20-26 | A non-string gives "". A string gives the first min(1000, n) characters of its trimmed text with the brackets removed, so the result is bracket-free and at most 1000 characters long |
| Sanitizer.SanitizeEmptyIff | src/ContactForm.jsx:20-26 | A string sanitises to "" exactly when its trimmed text consists of brackets only |
| Sanitizer.SanitizeNotIdempotent | app/api/contact/route.js:4-10 | The sanitiser neither trims its own output nor is idempotent: for any character `c` that is neither whitespace nor a bracket, such as `a`, `c` followed by `" <"` gives `c` followed by a space, and a second pass gives `c` alone |
| Email.IsValidEmail | src/ContactForm.jsx:29-32 | Accepts exactly the addresses that match `^[a-zA-Z0-9._%+-]+@[a-zA-Z0-9.-]+\.[a-zA-Z]{2,}$` and have at most 254 characters |
| Email.RunAcceptsIff | src/ContactForm.jsx:30 | The automaton ends in its accepting state exactly when some `@` and some later dot split the text into a local part, a domain and a top-level domain of at least two letters |
| Email.ValidEmailShape | src/ContactForm.jsx:29-32 | An accepted address is at most 254 characters long, holds exactly one `@`, and splits into a non-empty local part, a non-empty domain before a dot, and at least two letters after that dot |
| Email.EmailAccepted | src/ContactForm.jsx:30 | `"a@b.co"` is accepted |
| Email.EmailRejected | src/ContactForm.jsx:30 | `"not-an-email"` is rejected |
| ContactForm.Validate | src/ContactForm.jsx:159-192 | A field has an entry exactly when its sanitised value is unacceptable. An empty value gets the field's "required" message and any other failing value gets its length or format message |
| ContactForm.CheckFields | src/ContactForm.jsx:166-188 | The same four checks stated on already sanitised values |
| ContactForm.ValidIff | src/ContactForm.jsx:191 | `validate()` returns true exactly when every sanitised field is acceptable |
| ContactForm.ValidateIsPerField | src/ContactForm.jsx:166-188 | A field's entry depends only on that field's own sanitised value |
| ContactForm.SampleFormValid | src/ContactForm.jsx:159-192 | `{Jo, a@b.co, Hi!, 1234567890}`, with every field at its minimum, passes validation |
| ContactForm.ShortNameRejected | src/ContactForm.jsx:168-169 | A one-character name that is neither whitespace nor a bracket, such as `"J"`, is reported as "Name must be at least 2 characters", whatever the other fields hold |
| ContactForm.BracketNameMissing | src/ContactForm.jsx:166-167 | A name of brackets only, such as `"<<"`, sanitises to "" and is reported as "Full name is required", not as too short |
| ContactForm.CleanSanitizes | src/ContactForm.jsx:20-26 | Short text with no bracket and no surrounding whitespace sanitises to itself |
| ContactForm.HandleChange | src/ContactForm.jsx:152-157 | Only the edited field changes, only its error is replaced by the empty message, the banner is cleared, and the cooldown is untouched |
| ContactForm.ResetForm | src/ContactForm.jsx:266-269 | Leaves the success view and clears the banner, keeping the form, the errors and the cooldown |
| ContactForm.RemainingSeconds | src/ContactForm.jsx:199-202 | The countdown is the ceiling of the remaining milliseconds over 1000. It is at least 1, and at most 30 when the clock has not gone backwards |
| ContactForm.HandleSubmit | src/ContactForm.jsx:194-264 | During the cooldown only the countdown is shown. Otherwise an invalid form records its errors and sends nothing. A request goes out exactly when the gate and the validation pass, and it carries the sanitised fields. Only an `ok` reply with status "success" starts the cooldown at `now` and clears the form. Any other reply shows the server's message or the fallback text, and an exception shows the network message |
| ContactForm.WaitText | src/ContactForm.jsx:203-206 | The cooldown warning is the fixed prefix "Please wait ", then the canonical decimal writing of the seconds left, then " seconds before submitting again" |
| ContactForm.CooldownBoundary | src/ContactForm.jsx:198-208 | 29 999 ms after a success an attempt is refused with 1 second left and the exact text `WaitPrefix + "1" + WaitSuffix`, i.e. "Please wait 1 seconds before submitting again", and at 30 000 ms it goes through |
| ContactForm.FirstSubmitPassesGate | src/ContactForm.jsx:150-209 | `lastSubmitTime` starts at 0, so the first submit of a form is sent exactly when the clock reads at least 30 000 ms and the form is valid |
| ContactForm.SuccessStartsCooldown | src/ContactForm.jsx:238-241 | After a success the form is empty, and every attempt within the next 30 seconds sends nothing |
| ContactForm.FailureAllowsRetry | src/ContactForm.jsx:246-258 | A failed request leaves the gate and the form as they were, so an immediate retry sends the same request again |
| ContactRoute.FirstFailure | app/api/contact/route.js:30-56 | The checks run in the order name, email, subject, message, and only the first failure's message is reported. There is no failure exactly when all four pass |
| ContactRoute.MapUpstream | app/api/contact/route.js:75-94 | An `ok` backend reply with status "success" gives 200 and the fixed success text. Any other reply gives status "error" with the backend's code and its message, or 'Failed to send message' when that is missing or empty, and an exception gives 500 "Internal server error" |
| ContactRoute.Post | app/api/contact/route.js:18-95 | An unparsable body gives 500. Otherwise a message is forwarded exactly when the sanitised fields pass all checks, and the payload is exactly those sanitised values. A rejected request is answered 400 with the first failure |
| ContactRoute.RouteAgreesWithClient | app/api/contact/route.js:30-73 | For the same four strings, the route forwards exactly when the client's `validate` finds no error, and it forwards the payload the client would send |
| ContactRoute.RouteFieldChecksMatchClient | app/api/contact/route.js:30-56 | For each field separately, the route's check fails exactly when the client reports that field |
| ContactRoute.ChecksAgree | app/api/contact/route.js:30-56 | On sanitised values, all four route checks pass exactly when the client's error map is empty |
| ContactRoute.MissingFieldRejected | app/api/contact/route.js:5 | A missing or non-string field makes the request fail with 400, and nothing is forwarded |
| ContactRoute.NonObjectBodyRejected | app/api/contact/route.js:20-35 | A JSON body that is neither an object nor `null` has four `undefined` fields and is answered 400 "Valid name is required", with nothing forwarded |
| ContactRoute.FirstFailureWins | app/api/contact/route.js:30-35 | With a sanitised name shorter than 2 characters, only "Valid name is required" is reported, whatever the other fields hold |
| ContactRoute.OkWithoutSuccessIsError | app/api/contact/route.js:77-86 | An `ok` reply without status "success" still gives status "error" and passes the backend's code through |
| WhatsAppChat.FirstMatch | src/WhatsAppChat.jsx:24-62 | Returns the lowest index at or after the start whose rule has a keyword in the text, or the table length when there is none |
| WhatsAppChat.GetAutoReply | src/WhatsAppChat.jsx:21-66 | The reply is the response of the first rule with a keyword in the lower-cased message. It is the default reply when no rule has one, and it is always a table response or the default |
| WhatsAppChat.ReplyIgnoresCase | src/WhatsAppChat.jsx:22 | A message and its lower-cased form get the same reply |
| WhatsAppChat.ReplyIsCanned | src/WhatsAppChat.jsx:21-66 | The reply is one of the eleven fixed texts |
| WhatsAppChat.PriceQuestionAnswered | src/WhatsAppChat.jsx:24-25 | "What is your price?" gets the pricing reply |
| WhatsAppChat.PricingBeatsGreeting | src/WhatsAppChat.jsx:24-54 | "hello, what's the price" gets the pricing reply, because the pricing rule comes before the greeting rule |
| WhatsAppChat.HelloIsAGreeting | src/WhatsAppChat.jsx:52-53 | "hello there" gets the greeting reply |
| WhatsAppChat.ThisIsAGreeting | src/WhatsAppChat.jsx:52-53 | "this" contains "hi" and gets the greeting reply |
| WhatsAppChat.MessageIsAboutGrades | src/WhatsAppChat.jsx:32-33 | "message" contains "age" and gets the grade reply |
| WhatsAppChat.GibberishGetsDefault | src/WhatsAppChat.jsx:65 | "asdfasdf" gets the default reply |
| WhatsAppChat.NoRuleBefore | src/WhatsAppChat.jsx:24-62 | When no keyword of the first `n` rules can start anywhere in the text, none of those rules matches |
| WhatsAppChat.HandleSend | src/WhatsAppChat.jsx:89-112 | Whitespace-only input changes nothing. Otherwise the raw text is appended as a user message numbered length + 1, its reply as a bot message numbered length + 2, and the input is cleared |
| WhatsAppChat.InitialIsConversation | src/WhatsAppChat.jsx:70-77 | The initial transcript, the welcome message numbered 1, is a well-formed conversation |
| WhatsAppChat.SendKeepsConversation | src/WhatsAppChat.jsx:89-112 | Sending keeps the transcript a conversation: ids equal position + 1, and every non-blank user message is followed by the reply to it |
| WhatsAppChat.ExchangeExtends | src/WhatsAppChat.jsx:92-110 | Appending a non-blank question and its reply, correctly numbered, to a conversation yields a conversation |
| WhatsAppChat.SendAsWritten | src/WhatsAppChat.jsx:89-111 | Appends the user message now and fixes the delayed reply's id at the length seen at send time + 2 |
| WhatsAppChat.Deliver | src/WhatsAppChat.jsx:103-111 | The timer appends the scheduled reply unchanged |
| WhatsAppChat.SendThenDeliver | src/WhatsAppChat.jsx:89-112 | When the reply arrives before the next send, the handler as written equals `HandleSend` |
| WhatsAppChat.DoubleSendCollides | src/WhatsAppChat.jsx:93-105 | Two sends within the reply delay give the first reply the same id as the second question, so the ids are no longer in order |
| WhatsAppChat.SendFixed | src/WhatsAppChat.jsx:89-100 | The corrected send numbers only the user message, schedules only the reply text, and keeps the ids in order |
| WhatsAppChat.DeliverFixed | src/WhatsAppChat.jsx:103-111 | The corrected timer numbers the reply from the transcript as it is when it fires, and keeps the ids in order |
| WhatsAppChat.FixedSendThenDeliver | src/WhatsAppChat.jsx:89-112 | With the correction, a send followed by its reply equals `HandleSend` |
| EnrolmentForm.FieldError | src/App.jsx:43-49 | Name and grade fail exactly when blank, and the phone fails exactly when it is not ten digits. The phone's message is "required" when blank and "must be a 10-digit number" otherwise |
| EnrolmentForm.Validate | src/App.jsx:41-51 | All three fields are checked independently. Name and grade have entries exactly when whitespace only, and the phone has one exactly when the untrimmed text is not exactly ten ASCII digits |
| EnrolmentForm.DigitsAreNotBlank | src/App.jsx:45-48 | A ten-digit phone is never whitespace only, so "required" and "must be a 10-digit number" never apply together |
| EnrolmentForm.ValidIff | src/App.jsx:68-69 | The form passes exactly when name and grade are not blank and the phone is ten digits |
| EnrolmentForm.PaddedPhoneRejected | src/App.jsx:45-48 | The digit check is not trimmed: ten digits pass, and the same digits after a leading whitespace character get "Phone must be a 10-digit number" |
| EnrolmentForm.HandleChange | src/App.jsx:59-62 | Only the named field changes, only its error is replaced by the empty message, and the status line stays |
| EnrolmentForm.HandleSubmit | src/App.jsx:64-100 | When `handleSubmit` runs, the form is posted exactly when it has no errors, and it is posted as typed. Otherwise the errors are recorded and nothing is sent. A reply with status "success" clears the form and the errors, any other reply shows the failure text, and an exception shows the server-error text |
| EnrolmentForm.OkFlagIgnored | src/App.jsx:87 | The outcome does not depend on the HTTP `ok` flag |
| EnrolmentForm.FormClearedOnlyOnSuccess | src/App.jsx:87-93 | After a valid submit, the form and errors are either both cleared or both unchanged, and the success text appears exactly on a reported success |
| EnrolmentForm.InitialSubmitReportsAll | src/App.jsx:41-51 | When `handleSubmit` runs on the blank initial form, it sends nothing and reports all three fields as required |

## Findings

| source | as written | input that shows it | evidently intended | confidence | as-written member | corrected member |
|---|---|---|---|---|---|---|
| src/WhatsAppChat.jsx:105 | The delayed bot reply takes `messages.length + 2` from the transcript captured when the user sent, not from the transcript it is appended to | Two non-blank messages sent less than a second apart: the first reply and the second question both get id length + 2 | Number the reply from the current transcript when it is appended, so ids stay unique and in order | medium, not executed | WhatsAppChat.DoubleSendCollides | WhatsAppChat.DeliverFixed |

With the correction, `SendFixed` and `DeliverFixed` each keep the ids in order in any interleaving. `FixedSendThenDeliver` shows that the corrected pair equals `HandleSend`, the synchronous send that the rest of the model uses.

## Left out

- Rendering, styling and animation (MUI components, framer-motion, `StyledInput`) and the presentational pages have no logic to model.
- `fetch`, `response.json()` and `NextResponse` are left out. Each backend answer is an `Outcome` parameter: a `Reply(ok, code, status, message)` or `Threw`. A network failure, a reply body that is not JSON, and a JSON `null` reply body are `Threw`, because reading `result.status` or `result.message` from `null` throws. So the route answers 500 and the client shows its network message. A request body to the route that is not JSON, or is JSON `null`, is `Unparsable` and gets 500. Any other non-object JSON body, such as a number, string or array, destructures to four `undefined` fields and gets 400 "Valid name is required" (`ContactRoute.NonObjectBodyRejected`).
- The environment-variable choice of the backend URL is left out, because it does not affect any decision.
- `Date.now()` is left out: the current time is an integer parameter `now`, read once before the request. The `timestamp` field of the payload is opaque and left out of `Payload`.
- The `submitting` flags of both forms are left out. They disable the submit button and, in the contact form, also the four inputs. The model treats a submit as one step, so no edit or second submit can fall between the request and its outcome.
- `console.error`, `window.open`, `encodeURIComponent` and `scrollIntoView` are side effects with no bearing on state, so they are left out.
- The chat widget's open/closed state, the Enter-key handler and the message timestamps are left out.
- The widget sends nothing to any server: `handleSend` only updates the local transcript.
- JsText.ToLower: lower-cases ASCII letters only. JavaScript's `toLowerCase` also lower-cases other scripts, so the reply to a message with non-ASCII capitals may differ. Every keyword is ASCII; a non-ASCII capital such as U+212A, the Kelvin sign, lower-cases to an ASCII letter and could complete a keyword.
- Sanitizer.Sanitize: lengths are counted in Unicode scalar values, while JavaScript's `length` and `slice` count UTF-16 code units. Text beyond the basic plane therefore reaches the 1000 limit, and the name, subject and message minimums, at different points. A cut between two halves of a surrogate pair is not represented.
- Non-string JSON values: a request field that is not a string is `Other`, so its sanitised value is "".
- ContactRoute.MapUpstream: the backend's `message` is modelled as a string, or None when it is absent or a falsy non-string (`null`, `false`, `0`). A truthy non-string message, such as `{"message": 42}`, is outside the model. The route passes it through unchanged, and the contact form (src/ContactForm.jsx:250) shows it, so neither uses the fallback text. The same holds for `ContactForm.HandleSubmit`'s error banner.
- The browser's input limits are not modelled. The contact inputs carry `maxLength` 100, 254, 200 and 1000 (src/ContactForm.jsx:425, 440, 456, 472), so in the page typed text never reaches the sanitiser's 1000-character cut or the 254-character e-mail cap. The handlers are stated for any string, as the route receives them.
- EnrolmentForm.HandleSubmit: the three inputs are `required` and the form does not set `noValidate` (src/App.jsx:330-376). The browser therefore refuses to fire `submit` while a field is empty, so in the page `handleSubmit` only runs when every field is non-empty, and its "required" messages appear only for whitespace-only values. The browser's constraint check is not modelled: the handler is stated for every form it could be given. The contact form sets `noValidate` (src/ContactForm.jsx:411) and is not affected.

=== FILE: contact_form.dfy ===
/** The client-side contact form: its four text fields, the additive per-field
    validation, the field-change handler, and the submit handler as a pure
    transition over the form's state, given the current time in milliseconds
    and the outcome of the one request it may send. */
module ContactForm {
  import opened Outcomes
  import opened Sanitizer
  import opened Email
  import opened JsText

  datatype Field = Name | EmailAddress | Subject | Message

  const AllFields: set<Field> := {Name, EmailAddress, Subject, Message}

  datatype Form = Form(name: string, email: string, subject: string, message: string) {
    function Get(f: Field): string {
      match f
      case Name => name
      case EmailAddress => email
      case Subject => subject
      case Message => message
    }

    /** `setForm(prev => ({ ...prev, [f]: v }))`. */
    function Set(f: Field, v: string): (r: Form)
      ensures r.Get(f) == v
      ensures forall g :: g != f ==> r.Get(g) == Get(g)
    {
      match f
      case Name => this.(name := v)
      case EmailAddress => this.(email := v)
      case Subject => this.(subject := v)
      case Message => this.(message := v)
    }
  }

  const EmptyForm := Form("", "", "", "")

  /** The four sanitised values, as `validate` and the request body see them. */
  function SanitizeForm(form: Form): (clean: Form)
    ensures clean.name == Sanitize(Str(form.name)) && clean.email == Sanitize(Str(form.email))
    ensures clean.subject == Sanitize(Str(form.subject)) && clean.message == Sanitize(Str(form.message))
  {
    Form(Sanitize(Str(form.name)), Sanitize(Str(form.email)), Sanitize(Str(form.subject)), Sanitize(Str(form.message)))
  }

  /** The sanitised value of one field. */
  function Sanitized(form: Form, f: Field): string {
    SanitizeForm(form).Get(f)
  }

  /** Shortest sanitised name, subject and message accepted. */
  const MinNameLength: nat := 2
  const MinSubjectLength: nat := 3
  const MinMessageLength: nat := 10

  /** When a sanitised value is acceptable, stated without the error messages. */
  predicate Acceptable(f: Field, v: string) {
    match f
    case Name => |v| >= MinNameLength
    case EmailAddress => IsValidEmail(v)
    case Subject => |v| >= MinSubjectLength
    case Message => |v| >= MinMessageLength
  }

  function RequiredMessage(f: Field): string {
    match f
    case Name => "Full name is required"
    case EmailAddress => "Email is required"
    case Subject => "Subject is required"
    case Message => "Message is required"
  }

  function InvalidMessage(f: Field): string {
    match f
    case Name => "Name must be at least 2 characters"
    case EmailAddress => "Please enter a valid email address"
    case Subject => "Subject must be at least 3 characters"
    case Message => "Message must be at least 10 characters"
  }

  /** The message one field's branch of `validate` records for a sanitised value:
      the emptiness test comes first, then the length or format test. */
  function FieldError(f: Field, v: string): Option<string> {
    if v == [] then Some(RequiredMessage(f))
    else match f
      case Name => if |v| < MinNameLength then Some(InvalidMessage(f)) else None
      case EmailAddress => if !IsValidEmail(v) then Some(InvalidMessage(f)) else None
      case Subject => if |v| < MinSubjectLength then Some(InvalidMessage(f)) else None
      case Message => if |v| < MinMessageLength then Some(InvalidMessage(f)) else None
  }

  type Errors = map<Field, string>

  /** `validate()`: every field is checked, each on its own sanitised value.
      A field is in the map exactly when its value is unacceptable; an empty
      value is reported as missing, anything else as too short or malformed. */
  function Validate(form: Form): (errs: Errors)
    ensures forall f :: f in errs <==> !Acceptable(f, Sanitized(form, f))
    ensures forall f :: f in errs && Sanitized(form, f) == [] ==> errs[f] == RequiredMessage(f)
    ensures forall f :: f in errs && Sanitized(form, f) != [] ==> errs[f] == InvalidMessage(f)
  {
    CheckFields(SanitizeForm(form))
  }

  /** The four field checks on already sanitised values. */
  function CheckFields(clean: Form): (errs: Errors)
    ensures forall f :: f in errs <==> !Acceptable(f, clean.Get(f))
    ensures forall f :: f in errs && clean.Get(f) == [] ==> errs[f] == RequiredMessage(f)
    ensures forall f :: f in errs && clean.Get(f) != [] ==> errs[f] == InvalidMessage(f)
  {
    FieldErrorMeaning();
    map f | f in AllFields && FieldError(f, clean.Get(f)).Some? :: FieldError(f, clean.Get(f)).value
  }

  lemma FieldErrorMeaning()
    ensures forall f, v :: FieldError(f, v).Some? <==> !Acceptable(f, v)
    ensures forall f, v :: FieldError(f, v).Some? && v == [] ==> FieldError(f, v).value == RequiredMessage(f)
    ensures forall f, v :: FieldError(f, v).Some? && v != [] ==> FieldError(f, v).value == InvalidMessage(f)
  {
    EmptyRejected();
  }

  /** `validate()` returns true: the error map is empty. */
  predicate IsValid(form: Form) {
    Validate(form) == map[]
  }

  /** The form is valid exactly when every sanitised field is acceptable. */
  lemma ValidIff(form: Form)
    ensures IsValid(form) <==> forall f :: Acceptable(f, Sanitized(form, f))
  {
    if !IsValid(form) {
      var f :| f in Validate(form);
    }
  }

  /** Each field's entry depends only on that field's sanitised value. */
  lemma ValidateIsPerField(a: Form, b: Form, f: Field)
    requires Sanitized(a, f) == Sanitized(b, f)
    ensures f in Validate(a) <==> f in Validate(b)
    ensures f in Validate(a) ==> Validate(a)[f] == Validate(b)[f]
  {
  }

  /** The boundary sample: every field at its minimum length. */
  const SampleForm := Form("Jo", "a@b.co", "Hi!", "1234567890")

  /** The boundary sample passes validation. */
  lemma SampleFormValid()
    ensures IsValid(SampleForm)
  {
    SampleFormClean();
    ValidateUnfolds(SampleForm);
    SampleFormChecks();
  }

  lemma SampleFormClean()
    ensures SanitizeForm(SampleForm) == SampleForm
  {
    CleanFormSanitizes(SampleForm);
  }

  lemma SampleFormChecks()
    ensures CheckFields(SampleForm) == map[]
  {
    EmailAccepted();
    forall f ensures f !in CheckFields(SampleForm) {
      assert Acceptable(f, SampleForm.Get(f));
    }
  }

  lemma ValidateUnfolds(form: Form)
    ensures Validate(form) == CheckFields(SanitizeForm(form))
  {
  }

  /** Text that is short, bracket-free and not padded with whitespace. */
  predicate IsClean(s: string) {
    1 <= |s| <= MaxLength && BracketFree(s) && !IsWhitespace(s[0]) && !IsWhitespace(s[|s| - 1])
  }

  /** A form of clean fields is its own sanitised copy. */
  lemma CleanFormSanitizes(form: Form)
    requires IsClean(form.name) && IsClean(form.email) && IsClean(form.subject) && IsClean(form.message)
    ensures SanitizeForm(form) == form
  {
    CleanSanitizes(form.name);
    CleanSanitizes(form.email);
    CleanSanitizes(form.subject);
    CleanSanitizes(form.message);
  }

  /** A one-letter name is too short, whatever the other fields hold. */
  lemma ShortNameRejected(form: Form)
    requires |form.name| == 1 && IsClean(form.name)
    ensures Name in Validate(form) && Validate(form)[Name] == "Name must be at least 2 characters"
  {
    CleanSanitizes(form.name);
  }

  /** A name of brackets only, such as `"<<"`, sanitises to "" and is reported as
      missing rather than as too short. */
  lemma BracketNameMissing(form: Form)
    requires forall i :: 0 <= i < |form.name| ==> IsBracket(form.name[i])
    ensures Name in Validate(form) && Validate(form)[Name] == "Full name is required"
  {
    BracketsSanitizeEmpty(form.name);
    assert Sanitized(form, Name) == [];
  }

  lemma BracketsSanitizeEmpty(t: string)
    requires forall i :: 0 <= i < |t| ==> IsBracket(t[i])
    ensures Sanitize(Str(t)) == []
  {
    assert TrimmedAt(t, t, 0);
    TrimUnique(t, t);
    SanitizeEmptyIff(t);
  }

  /** A short text with no bracket and no surrounding whitespace sanitises to itself. */
  lemma CleanSanitizes(s: string)
    requires IsClean(s)
    ensures Sanitize(Str(s)) == s
  {
    assert TrimmedAt(s, s, 0);
    TrimUnique(s, s);
    StripBracketsFixes(s);
  }

  // ---------------------------------------------------------------------------
  // The banner and the handlers.

  datatype StatusKind = NoStatus | Warning | Success | Error

  /** The banner: `{ type, message }`. */
  datatype Status = Status(kind: StatusKind, message: string)

  const NoBanner := Status(NoStatus, "")
  const SuccessText := "Message sent successfully! We'll get back to you soon."
  const FallbackText := "Something went wrong. Please try again."
  const NetworkText := "Network error. Please check your connection and try again."

  /** Minimum time between two successful submissions, in milliseconds. */
  const SubmitCooldown: int := 30000

  /** The component's state; `lastSubmitTime` is the ref holding the time of the
      last successful submission (0 initially). */
  datatype State = State(form: Form, errors: Errors, status: Status, submitted: bool, lastSubmitTime: int)

  const Initial := State(EmptyForm, map[], NoBanner, false, 0)

  /** `handleChange`: the edited field takes the new value, its error is set to
      the empty message, and the banner is cleared. */
  function HandleChange(st: State, f: Field, v: string): (r: State)
    ensures r.form.Get(f) == v
    ensures forall g :: g != f ==> r.form.Get(g) == st.form.Get(g)
    ensures r.errors.Keys == st.errors.Keys + {f} && r.errors[f] == []
    ensures forall g :: g in st.errors && g != f ==> r.errors[g] == st.errors[g]
    ensures r.status == NoBanner
    ensures r.submitted == st.submitted && r.lastSubmitTime == st.lastSubmitTime
  {
    st.(form := st.form.Set(f, v), errors := st.errors[f := ""], status := NoBanner)
  }

  /** `resetForm`: leaves the success view. */
  function ResetForm(st: State): (r: State)
    ensures !r.submitted && r.status == NoBanner
    ensures r.form == st.form && r.errors == st.errors && r.lastSubmitTime == st.lastSubmitTime
  {
    st.(submitted := false, status := NoBanner)
  }

  /** The cooldown gate: an attempt is refused while fewer than 30 000 ms have
      passed since the last successful submission. */
  predicate InCooldown(now: int, last: int) {
    now - last < SubmitCooldown
  }

  /** `Math.ceil((SUBMIT_COOLDOWN - (now - last)) / 1000)`: the seconds left. */
  function RemainingSeconds(now: int, last: int): (secs: int)
    requires InCooldown(now, last)
    ensures secs >= 1
    ensures (secs - 1) * 1000 < SubmitCooldown - (now - last) <= secs * 1000
    ensures 0 <= now - last ==> secs <= 30
  {
    (SubmitCooldown - (now - last) + 999) / 1000
  }

  const WaitPrefix := "Please wait "
  const WaitSuffix := " seconds before submitting again"

  /** The warning shown during the cooldown: between its fixed prefix and suffix
      stands the canonical decimal writing of `secs`. */
  function WaitText(secs: nat): (t: string)
    ensures |t| > |WaitPrefix| + |WaitSuffix|
    ensures t[..|WaitPrefix|] == WaitPrefix && t[|t| - |WaitSuffix|..] == WaitSuffix
    ensures var number := t[|WaitPrefix|..|t| - |WaitSuffix|];
      IsCanonicalDecimal(number) && DecimalValue(number) == secs
  {
    var number := NatToDecimal(secs);
    var t := WaitPrefix + number + WaitSuffix;
    assert t[..|WaitPrefix|] == WaitPrefix;
    assert t[|t| - |WaitSuffix|..] == WaitSuffix;
    assert t[|WaitPrefix|..|t| - |WaitSuffix|] == number;
    t
  }

  /** The JSON body sent to the backend, without its opaque `timestamp`. */
  datatype Payload = Payload(name: string, email: string, subject: string, message: string)

  function SanitizedPayload(form: Form): Payload {
    var clean := SanitizeForm(form);
    Payload(clean.name, clean.email, clean.subject, clean.message)
  }

  /** The state after a submit attempt, and the request it sent, if any. */
  datatype Attempt = Attempt(state: State, sent: Option<Payload>)

  /** An attempt succeeds when it passes the gate and validation and the
      backend answers `ok` with status `"success"`. */
  predicate Succeeds(st: State, now: int, outcome: Outcome) {
    && !InCooldown(now, st.lastSubmitTime)
    && IsValid(st.form)
    && outcome.Answered? && IsAcceptedReply(outcome.reply)
  }

  /** `handleSubmit`: the cooldown gate, then validation, then one request whose
      outcome is `outcome`; `now` is read once, before the request. */
  function HandleSubmit(st: State, now: int, outcome: Outcome): (r: Attempt)
    // the gate: a blocked attempt only shows the countdown
    ensures InCooldown(now, st.lastSubmitTime) ==>
      && r.sent == None
      && r.state == st.(status := Status(Warning, WaitText(RemainingSeconds(now, st.lastSubmitTime))))
    // validation failures record the errors and send nothing
    ensures !InCooldown(now, st.lastSubmitTime) && !IsValid(st.form) ==>
      r.sent == None && r.state == st.(errors := Validate(st.form))
    // a request goes out exactly when gate and validation pass, with the sanitised fields
    ensures r.sent.Some? <==> !InCooldown(now, st.lastSubmitTime) && IsValid(st.form)
    ensures r.sent.Some? ==> r.sent.value == SanitizedPayload(st.form) && r.state.errors == map[]
    // only a success starts the cooldown and clears the form
    ensures r.state.lastSubmitTime == (if Succeeds(st, now, outcome) then now else st.lastSubmitTime)
    ensures r.state.form == (if Succeeds(st, now, outcome) then EmptyForm else st.form)
    ensures Succeeds(st, now, outcome) ==> r.state.submitted && r.state.status == Status(Success, SuccessText)
    // failures keep the form and report the server's message or a fallback
    ensures r.sent.Some? && outcome.Answered? && !IsAcceptedReply(outcome.reply) ==>
      r.state.status == Status(Error, OrElse(outcome.reply.message, FallbackText))
    ensures r.sent.Some? && outcome.Threw? ==> r.state.status == Status(Error, NetworkText)
    ensures !Succeeds(st, now, outcome) ==> r.state.submitted == st.submitted
  {
    var last := st.lastSubmitTime;
    if InCooldown(now, last) then
      var secs := RemainingSeconds(now, last);
      Attempt(st.(status := Status(Warning, WaitText(secs))), None)
    else
      var errs := Validate(st.form);
      if errs != map[] then
        Attempt(st.(errors := errs), None)
      else
        var sending := st.(errors := errs, status := NoBanner);
        var after :=
          match outcome
          case Threw => sending.(status := Status(Error, NetworkText))
          case Answered(reply) =>
            if IsAcceptedReply(reply) then
              sending.(lastSubmitTime := now, submitted := true, form := EmptyForm, status := Status(Success, SuccessText))
            else
              sending.(status := Status(Error, OrElse(reply.message, FallbackText)));
        Attempt(after, Some(SanitizedPayload(st.form)))
  }

  /** The gate opens exactly at the cooldown: 29 999 ms after the last success
      an attempt is refused with one second left, at 30 000 ms it goes through. */
  lemma CooldownBoundary(last: int)
    ensures InCooldown(last + 29999, last) && RemainingSeconds(last + 29999, last) == 1
    ensures WaitText(RemainingSeconds(last + 29999, last)) == WaitPrefix + "1" + WaitSuffix
    ensures !InCooldown(last + 30000, last)
  {
    assert RemainingSeconds(last + 29999, last) == 1;
    assert NatToDecimal(1) == "1";
  }

  /** `lastSubmitTime` starts at 0, so the first attempt's gate measures from
      the epoch: it is sent exactly when the clock reads at least 30 000 ms and
      the form is valid. */
  lemma FirstSubmitPassesGate(form: Form, now: int, outcome: Outcome)
    ensures HandleSubmit(Initial.(form := form), now, outcome).sent.Some? <==>
      now >= SubmitCooldown && IsValid(form)
  {
  }

  /** After a success, every attempt in the next 30 seconds is refused without a
      request, whatever the form holds; a failed attempt does not start a cooldown. */
  lemma SuccessStartsCooldown(st: State, now: int, outcome: Outcome, later: int, next: Outcome)
    requires Succeeds(st, now, outcome)
    requires now <= later < now + SubmitCooldown
    ensures var s1 := HandleSubmit(st, now, outcome).state;
      && s1.form == EmptyForm
      && HandleSubmit(s1, later, next).sent == None
      && HandleSubmit(s1, later, next).state.form == EmptyForm
  {
  }

  /** A failed or rejected request leaves the gate as it was, so an immediate retry
      with the same form sends the same request again. */
  lemma FailureAllowsRetry(st: State, now: int, outcome: Outcome, again: Outcome)
    requires HandleSubmit(st, now, outcome).sent.Some?
    requires !Succeeds(st, now, outcome)
    ensures var s1 := HandleSubmit(st, now, outcome).state;
      HandleSubmit(s1, now, again).sent == HandleSubmit(st, now, outcome).sent
  {
  }
}

=== FILE: contact_route.dfy ===
/** The `POST` handler of the contact API route: it sanitises the four fields of
    the JSON body, checks them in a fixed order and answers 400 with the first
    failure, forwards a fully valid message to the backend and maps the backend's
    answer to its own response; any exception becomes a 500. */
module ContactRoute {
  import opened Outcomes
  import opened Sanitizer
  import opened Email
  import ContactForm

  /** The request as `request.json()` and destructuring see it. Destructuring
      throws only for the JSON `null`: that and a body that does not parse are
      `Unparsable`. Every other JSON value gives four values, and a key it does
      not hold is `undefined`, i.e. `Other`; a number, string, boolean or array
      body is therefore `Fields(Other, Other, Other, Other)`. */
  datatype Request = Fields(name: Input, email: Input, subject: Input, message: Input) | Unparsable

  /** The JSON response: HTTP status code, `status` and `message`. */
  datatype Response = Response(code: int, status: string, message: string)

  /** The handler's answer and the message it forwarded upstream, if any. */
  datatype Handled = Handled(response: Response, forwarded: Option<ContactForm.Payload>)

  const NameRejected := "Valid name is required"
  const EmailRejected := "Valid email is required"
  const SubjectRejected := "Valid subject is required"
  const MessageRejected := "Message must be at least 10 characters"
  const SentText := "Message sent successfully!"
  const UpstreamFallback := "Failed to send message"
  const InternalError := Response(500, "error", "Internal server error")

  /** The four checks on sanitised values, in source order; the first that fails
      gives the message of the 400 response. */
  function FirstFailure(name: string, email: string, subject: string, message: string): (r: Option<string>)
    ensures r == None <==> |name| >= ContactForm.MinNameLength && IsValidEmail(email) && |subject| >= ContactForm.MinSubjectLength && |message| >= ContactForm.MinMessageLength
    ensures |name| < ContactForm.MinNameLength ==> r == Some(NameRejected)
    ensures |name| >= ContactForm.MinNameLength && !IsValidEmail(email) ==> r == Some(EmailRejected)
    ensures |name| >= ContactForm.MinNameLength && IsValidEmail(email) && |subject| < ContactForm.MinSubjectLength ==> r == Some(SubjectRejected)
    ensures |name| >= ContactForm.MinNameLength && IsValidEmail(email) && |subject| >= ContactForm.MinSubjectLength && |message| < ContactForm.MinMessageLength ==> r == Some(MessageRejected)
  {
    if name == [] || |name| < ContactForm.MinNameLength then Some(NameRejected)
    else if email == [] || !IsValidEmail(email) then Some(EmailRejected)
    else if subject == [] || |subject| < ContactForm.MinSubjectLength then Some(SubjectRejected)
    else if message == [] || |message| < ContactForm.MinMessageLength then Some(MessageRejected)
    else None
  }

  /** What the route answers once the backend has replied or thrown. */
  function MapUpstream(upstream: Outcome): (r: Response)
    ensures upstream.Threw? ==> r == InternalError
    ensures upstream.Answered? && IsAcceptedReply(upstream.reply) ==> r == Response(200, "success", SentText)
    ensures upstream.Answered? && !IsAcceptedReply(upstream.reply) ==>
      r == Response(upstream.reply.code, "error", OrElse(upstream.reply.message, UpstreamFallback))
    ensures r.status == "success" <==> upstream.Answered? && IsAcceptedReply(upstream.reply)
  {
    match upstream
    case Threw => InternalError
    case Answered(reply) =>
      if IsAcceptedReply(reply) then Response(200, "success", SentText)
      else Response(reply.code, "error", OrElse(reply.message, UpstreamFallback))
  }

  /** `POST(request)`, with `upstream` standing for the backend call's outcome. */
  function Post(req: Request, upstream: Outcome): (r: Handled)
    ensures req.Unparsable? ==> r == Handled(InternalError, None)
    ensures req.Fields? ==>
      var name, email, subject, message := Sanitize(req.name), Sanitize(req.email), Sanitize(req.subject), Sanitize(req.message);
      && (r.forwarded.Some? <==> FirstFailure(name, email, subject, message) == None)
      && (r.forwarded.Some? ==> r.forwarded.value == ContactForm.Payload(name, email, subject, message)
                                && r.response == MapUpstream(upstream))
      && (r.forwarded.None? ==> r.response == Response(400, "error", FirstFailure(name, email, subject, message).value))
  {
    match req
    case Unparsable => Handled(InternalError, None)
    case Fields(n, e, s, m) =>
      var name, email, subject, message := Sanitize(n), Sanitize(e), Sanitize(s), Sanitize(m);
      match FirstFailure(name, email, subject, message)
      case Some(reason) => Handled(Response(400, "error", reason), None)
      case None => Handled(MapUpstream(upstream), Some(ContactForm.Payload(name, email, subject, message)))
  }

  function AsRequest(form: ContactForm.Form): Request {
    Fields(Str(form.name), Str(form.email), Str(form.subject), Str(form.message))
  }

  /** The route forwards a message exactly when the client-side `validate` finds
      nothing wrong with the same four strings, and then forwards the same
      sanitised payload the client would send. */
  lemma RouteAgreesWithClient(form: ContactForm.Form, upstream: Outcome)
    ensures Post(AsRequest(form), upstream).forwarded.Some? <==> ContactForm.IsValid(form)
    ensures ContactForm.IsValid(form) ==>
      Post(AsRequest(form), upstream).forwarded == Some(ContactForm.SanitizedPayload(form))
  {
    var clean := ContactForm.SanitizeForm(form);
    var r := Post(AsRequest(form), upstream);
    assert r.forwarded.Some? <==> FirstFailure(clean.name, clean.email, clean.subject, clean.message) == None;
    ContactForm.ValidateUnfolds(form);
    ChecksAgree(clean);
  }

  /** Field-by-field, a route check fails exactly when the client reports that field. */
  lemma RouteFieldChecksMatchClient(form: ContactForm.Form)
    ensures var clean := ContactForm.SanitizeForm(form);
      && (|clean.name| < ContactForm.MinNameLength <==> ContactForm.Name in ContactForm.Validate(form))
      && (!IsValidEmail(clean.email) <==> ContactForm.EmailAddress in ContactForm.Validate(form))
      && (|clean.subject| < ContactForm.MinSubjectLength <==> ContactForm.Subject in ContactForm.Validate(form))
      && (|clean.message| < ContactForm.MinMessageLength <==> ContactForm.Message in ContactForm.Validate(form))
  {
    var clean := ContactForm.SanitizeForm(form);
    ContactForm.ValidateUnfolds(form);
    FieldChecksAgree(clean);
  }

  /** On sanitised values, the route's four checks and the client's field checks agree. */
  lemma FieldChecksAgree(clean: ContactForm.Form)
    ensures && (|clean.name| < ContactForm.MinNameLength <==> ContactForm.Name in ContactForm.CheckFields(clean))
            && (!IsValidEmail(clean.email) <==> ContactForm.EmailAddress in ContactForm.CheckFields(clean))
            && (|clean.subject| < ContactForm.MinSubjectLength <==> ContactForm.Subject in ContactForm.CheckFields(clean))
            && (|clean.message| < ContactForm.MinMessageLength <==> ContactForm.Message in ContactForm.CheckFields(clean))
  {
    assert clean.Get(ContactForm.Name) == clean.name;
    assert clean.Get(ContactForm.EmailAddress) == clean.email;
    assert clean.Get(ContactForm.Subject) == clean.subject;
    assert clean.Get(ContactForm.Message) == clean.message;
  }

  lemma ChecksAgree(clean: ContactForm.Form)
    ensures FirstFailure(clean.name, clean.email, clean.subject, clean.message) == None
            <==> ContactForm.CheckFields(clean) == map[]
  {
    FieldChecksAgree(clean);
    var errs := ContactForm.CheckFields(clean);
    if errs != map[] {
      var f :| f in errs;
    }
  }

  /** A field that is missing or not a string sanitises to "" and fails its own
      check, so such a request is answered 400 and nothing is forwarded. */
  lemma MissingFieldRejected(name: Input, email: Input, subject: Input, message: Input, upstream: Outcome)
    requires name.Other? || email.Other? || subject.Other? || message.Other?
    ensures Post(Fields(name, email, subject, message), upstream).forwarded == None
    ensures Post(Fields(name, email, subject, message), upstream).response.code == 400
  {
    EmptyRejected();
  }

  /** A JSON body that is not an object, nor `null`, holds none of the four keys:
      it is answered 400 for the name, not 500. */
  lemma NonObjectBodyRejected(upstream: Outcome)
    ensures Post(Fields(Other, Other, Other, Other), upstream) == Handled(Response(400, "error", NameRejected), None)
  {
  }

  /** A name that is too short is the only failure reported, however bad the
      other fields are. */
  lemma FirstFailureWins(name: string, email: string, subject: string, message: string)
    requires |name| < ContactForm.MinNameLength
    ensures FirstFailure(name, email, subject, message) == Some(NameRejected)
  {
  }

  /** A backend answer that is `ok` but not `"success"` still yields status "error",
      with the backend's 2xx code passed through. */
  lemma OkWithoutSuccessIsError(code: int, status: Option<string>, message: Option<string>)
    requires status != Some("success")
    ensures MapUpstream(Answered(Reply(true, code, status, message))) ==
      Response(code, "error", OrElse(message, UpstreamFallback))
  {
  }
}

=== FILE: email.dfy ===
/** `isValidEmail`: the pattern `^[a-zA-Z0-9._%+-]+@[a-zA-Z0-9.-]+\.[a-zA-Z]{2,}$`
    together with a cap of 254 characters. The pattern is recognised by a
    hand-written finite automaton and proved equal to the declarative reading
    "the address splits into local part, `@`, domain, `.`, top-level domain". */
module Email {
  import opened JsText

  /** Longest address accepted. */
  const MaxEmailLength: nat := 254

  /** The class `[a-zA-Z0-9._%+-]`. */
  predicate IsLocalChar(c: char) {
    IsAsciiLetter(c) || IsAsciiDigit(c) || c == '.' || c == '_' || c == '%' || c == '+' || c == '-'
  }

  /** The class `[a-zA-Z0-9.-]`. */
  predicate IsDomainChar(c: char) {
    IsAsciiLetter(c) || IsAsciiDigit(c) || c == '.' || c == '-'
  }

  predicate AllLocal(s: string) {
    forall i :: 0 <= i < |s| ==> IsLocalChar(s[i])
  }

  predicate AllDomain(s: string) {
    forall i :: 0 <= i < |s| ==> IsDomainChar(s[i])
  }

  predicate AllLetters(s: string) {
    forall i :: 0 <= i < |s| ==> IsAsciiLetter(s[i])
  }

  /** `d` matches `[a-zA-Z0-9.-]+\.[a-zA-Z]{2,}` with the `\.` at index `k`. */
  predicate TldSplit(d: string, k: int) {
    && 1 <= k && k + 3 <= |d|
    && AllDomain(d[..k]) && d[k] == '.' && AllLetters(d[k + 1..])
  }

  /** `e` matches the whole pattern with its `@` at index `i`. */
  ghost predicate EmailSplit(e: string, i: int) {
    && 1 <= i < |e|
    && AllLocal(e[..i]) && e[i] == '@'
    && DomainMatches(e[i + 1..])
  }

  /** The text after the `@` fits `[a-zA-Z0-9.-]+\.[a-zA-Z]{2,}`. */
  ghost predicate DomainMatches(d: string) {
    exists k :: TldSplit(d, k)
  }

  /** The declarative reading of the pattern: some split of `e` fits it. */
  ghost predicate MatchesEmailPattern(e: string) {
    exists i :: EmailSplit(e, i)
  }

  /** The automaton's states. `Domain`, `Dot`, `Tld1` and `Tld2` are the states
      inside the domain part: last character seen was an ordinary domain
      character, a `.` with a non-empty domain before it, one letter after such
      a `.`, or at least two letters after it (the accepting state). */
  datatype State = Start | Local | AfterAt | Domain | Dot | Tld1 | Tld2 | Reject

  function Step(st: State, c: char): State {
    match st
    case Start => if IsLocalChar(c) then Local else Reject
    case Local => if c == '@' then AfterAt else if IsLocalChar(c) then Local else Reject
    case AfterAt => if IsDomainChar(c) then Domain else Reject
    case Domain => if c == '.' then Dot else if IsDomainChar(c) then Domain else Reject
    case Dot => if c == '.' then Dot else if IsAsciiLetter(c) then Tld1 else if IsDomainChar(c) then Domain else Reject
    case Tld1 => if c == '.' then Dot else if IsAsciiLetter(c) then Tld2 else if IsDomainChar(c) then Domain else Reject
    case Tld2 => if c == '.' then Dot else if IsAsciiLetter(c) then Tld2 else if IsDomainChar(c) then Domain else Reject
    case Reject => Reject
  }

  /** The state reached from `st` after reading `s` left to right. */
  function Run(st: State, s: string): State
    decreases |s|
  {
    if s == [] then st else Run(Step(st, s[0]), s[1..])
  }

  /** `isValidEmail(e)`: the automaton accepts and the length cap holds. */
  function IsValidEmail(e: string): (ok: bool)
    ensures ok <==> MatchesEmailPattern(e) && |e| <= MaxEmailLength
  {
    RunAcceptsIff(e);
    Run(Start, e) == Tld2 && |e| <= MaxEmailLength
  }

  // ---------------------------------------------------------------------------
  // Soundness: what reaching each state says about the text read so far.

  /** `p` is a non-empty local part, an `@` at index `i`, and domain characters. */
  predicate AtPrefix(p: string, i: int) {
    1 <= i < |p| && AllLocal(p[..i]) && p[i] == '@' && AllDomain(p[i + 1..])
  }

  predicate InDomain(st: State) {
    st == Domain || st == Dot || st == Tld1 || st == Tld2
  }

  /** What a state inside the domain part says, given the `@` at index `i`. */
  ghost predicate DomainMeaning(st: State, p: string, i: int)
    requires InDomain(st)
  {
    0 <= i < |p| &&
    match st
    case Domain => i + 1 < |p|
    case Dot => i + 2 < |p| && p[|p| - 1] == '.'
    case Tld1 => i + 3 < |p| && p[|p| - 2] == '.' && IsAsciiLetter(p[|p| - 1])
    case Tld2 => DomainMatches(p[i + 1..])
  }

  ghost predicate Meaning(st: State, p: string) {
    match st
    case Start => p == []
    case Local => |p| >= 1 && AllLocal(p)
    case AfterAt => AtPrefix(p, |p| - 1)
    case Reject => true
    case _ => exists i :: AtPrefix(p, i) && DomainMeaning(st, p, i)
  }

  lemma AtPrefixExtends(p: string, i: int, c: char)
    requires AtPrefix(p, i) && IsDomainChar(c)
    ensures AtPrefix(p + [c], i)
  {
    assert (p + [c])[..i] == p[..i];
    assert (p + [c])[i + 1..] == p[i + 1..] + [c];
  }

  /** A domain character read inside the domain part keeps `DomainMeaning`. */
  lemma DomainStepSound(st: State, p: string, i: int, c: char)
    requires InDomain(st) && AtPrefix(p, i) && DomainMeaning(st, p, i) && IsDomainChar(c)
    ensures InDomain(Step(st, c)) && DomainMeaning(Step(st, c), p + [c], i)
  {
    var q := p + [c];
    if Step(st, c) == Tld2 {
      var d := q[i + 1..];
      assert d == p[i + 1..] + [c];
      if st == Tld1 {
        assert TldSplit(d, |d| - 3) by {
          assert d[|d| - 2..] == [q[|q| - 2], c];
        }
      } else {
        var k :| TldSplit(p[i + 1..], k);
        assert TldSplit(d, k) by {
          assert d[..k] == p[i + 1..][..k];
          assert d[k + 1..] == p[i + 1..][k + 1..] + [c];
        }
      }
    }
  }

  /** One step of the automaton keeps `Meaning`. */
  lemma StepSound(st: State, p: string, c: char)
    requires Meaning(st, p)
    ensures Meaning(Step(st, c), p + [c])
  {
    match st
    case Start => StartStepSound(p, c);
    case Local => LocalStepSound(p, c);
    case AfterAt => AfterAtStepSound(p, c);
    case Reject =>
    case _ => InDomainStepSound(st, p, c);
  }

  lemma StartStepSound(p: string, c: char)
    requires Meaning(Start, p)
    ensures Meaning(Step(Start, c), p + [c])
  {
    if IsLocalChar(c) {
      assert p + [c] == [c];
      assert AllLocal([c]);
    }
  }

  lemma LocalStepSound(p: string, c: char)
    requires Meaning(Local, p)
    ensures Meaning(Step(Local, c), p + [c])
  {
    var q := p + [c];
    if c == '@' {
      assert q[..|p|] == p;
      assert AtPrefix(q, |q| - 1);
    } else if IsLocalChar(c) {
      assert forall j :: 0 <= j < |p| ==> q[j] == p[j];
      assert AllLocal(q);
    }
  }

  lemma AfterAtStepSound(p: string, c: char)
    requires Meaning(AfterAt, p)
    ensures Meaning(Step(AfterAt, c), p + [c])
  {
    if IsDomainChar(c) {
      var q := p + [c];
      AtPrefixExtends(p, |p| - 1, c);
      assert AtPrefix(q, |p| - 1) && DomainMeaning(Domain, q, |p| - 1);
    }
  }

  lemma InDomainStepSound(st: State, p: string, c: char)
    requires InDomain(st) && Meaning(st, p)
    ensures Meaning(Step(st, c), p + [c])
  {
    if IsDomainChar(c) {
      var i :| AtPrefix(p, i) && DomainMeaning(st, p, i);
      AtPrefixExtends(p, i, c);
      DomainStepSound(st, p, i, c);
      assert AtPrefix(p + [c], i) && DomainMeaning(Step(st, c), p + [c], i);
    } else {
      assert Step(st, c) == Reject;
    }
  }

  lemma {:induction false} RunSound(st: State, p: string, s: string)
    requires Meaning(st, p)
    ensures Meaning(Run(st, s), p + s)
    decreases |s|
  {
    if s != [] {
      var q := p + [s[0]];
      StepSound(st, p, s[0]);
      RunSound(Step(st, s[0]), q, s[1..]);
      assert q + s[1..] == p + s;
    } else {
      assert p + s == p;
    }
  }

  // ---------------------------------------------------------------------------
  // Completeness: a matching split drives the automaton to `Tld2`.

  lemma {:induction false} RunAppend(st: State, a: string, b: string)
    ensures Run(st, a + b) == Run(Run(st, a), b)
    decreases |a|
  {
    if a != [] {
      assert (a + b)[1..] == a[1..] + b;
      RunAppend(Step(st, a[0]), a[1..], b);
    } else {
      assert a + b == b;
    }
  }

  lemma {:induction false} RunLocalPart(st: State, s: string)
    requires st == Start || st == Local
    requires AllLocal(s) && (st == Start ==> |s| >= 1)
    ensures Run(st, s) == Local
    decreases |s|
  {
    if s != [] {
      RunLocalPart(Local, s[1..]);
    }
  }

  lemma {:induction false} RunDomainPart(st: State, s: string)
    requires InDomain(st) || (st == AfterAt && |s| >= 1)
    requires AllDomain(s)
    ensures InDomain(Run(st, s))
    decreases |s|
  {
    if s != [] {
      RunDomainPart(Step(st, s[0]), s[1..]);
    }
  }

  lemma {:induction false} RunTopLevel(st: State, s: string)
    requires st == Dot || st == Tld1 || st == Tld2
    requires AllLetters(s)
    requires st == Dot ==> |s| >= 2
    requires st == Tld1 ==> |s| >= 1
    ensures Run(st, s) == Tld2
    decreases |s|
  {
    if s != [] {
      RunTopLevel(Step(st, s[0]), s[1..]);
    }
  }

  lemma RunComplete(e: string, i: int)
    requires EmailSplit(e, i)
    ensures Run(Start, e) == Tld2
  {
    var k :| TldSplit(e[i + 1..], k);
    var d := e[i + 1..];
    var local, domain, tld := e[..i], d[..k], d[k + 1..];
    assert e == local + (['@'] + (domain + (['.'] + tld)));
    RunAppend(Start, local, ['@'] + (domain + (['.'] + tld)));
    RunLocalPart(Start, local);
    RunAppend(Local, ['@'], domain + (['.'] + tld));
    RunAppend(AfterAt, domain, ['.'] + tld);
    RunDomainPart(AfterAt, domain);
    var afterDomain := Run(AfterAt, domain);
    RunAppend(afterDomain, ['.'], tld);
    RunTopLevel(Dot, tld);
  }

  /** The automaton accepts exactly the strings of the pattern. */
  lemma RunAcceptsIff(e: string)
    ensures Run(Start, e) == Tld2 <==> MatchesEmailPattern(e)
  {
    if Run(Start, e) == Tld2 {
      RunSound(Start, [], e);
      assert [] + e == e;
      var i :| AtPrefix(e, i) && DomainMeaning(Tld2, e, i);
      assert EmailSplit(e, i);
    }
    if MatchesEmailPattern(e) {
      var i :| EmailSplit(e, i);
      RunComplete(e, i);
    }
  }

  // ---------------------------------------------------------------------------
  // What an accepted address looks like.

  /** An accepted address has one `@`, a non-empty local part over
      `[a-zA-Z0-9._%+-]`, and after the `@` a dot whose prefix is non-empty over
      `[a-zA-Z0-9.-]` and which is followed by two or more ASCII letters. */
  lemma ValidEmailShape(e: string)
    requires IsValidEmail(e)
    ensures |e| <= MaxEmailLength
    ensures multiset(e)['@'] == 1
    ensures exists i :: EmailSplit(e, i)
  {
    var i :| EmailSplit(e, i);
    var local, d := e[..i], e[i + 1..];
    NoAtIn(local);
    NoAtInDomain(d);
    assert e == local + ['@'] + d;
    assert multiset(e) == multiset(local) + multiset(['@']) + multiset(d);
  }

  lemma NoAtIn(s: string)
    requires AllLocal(s) || AllDomain(s)
    ensures multiset(s)['@'] == 0
  {
    assert forall j :: 0 <= j < |s| ==> s[j] != '@';
  }

  /** A domain that fits the pattern holds no `@`. */
  lemma NoAtInDomain(d: string)
    requires DomainMatches(d)
    ensures multiset(d)['@'] == 0
  {
    var k :| TldSplit(d, k);
    assert forall j :: k < j < |d| ==> d[j] == d[k + 1..][j - (k + 1)];
    assert forall j :: 0 <= j < |d| ==> d[j] != '@' by {
      forall j | 0 <= j < |d| ensures d[j] != '@' {
        if j < k {
          assert d[j] == d[..k][j];
        }
      }
    }
  }

  /** The address of the sample form passes. */
  lemma EmailAccepted()
    ensures IsValidEmail("a@b.co")
  {
    var e := "a@b.co";
    assert EmailSplit(e, 1) by {
      assert e[..1] == "a" && e[2..] == "b.co";
      assert TldSplit("b.co", 1) by {
        assert "b.co"[..1] == "b" && "b.co"[2..] == "co";
      }
    }
  }

  /** The empty string is refused. */
  lemma EmptyRejected()
    ensures !IsValidEmail([])
  {
  }

  /** A string without `@` is refused. */
  lemma EmailRejected()
    ensures !IsValidEmail("not-an-email")
  {
    var e := "not-an-email";
    assert !MatchesEmailPattern(e) by {
      forall i | 0 <= i < |e| ensures e[i] != '@' { }
    }
  }
}

=== FILE: enrolment_form.dfy ===
/** The older enrolment form of the single-page app: name, grade and phone, a
    validation that only asks for non-blank text and a ten-digit phone, and a
    submit handler that posts the raw form and reads only the reply's `status`. */
module EnrolmentForm {
  import opened Outcomes
  import opened JsText

  datatype Field = Name | Grade | Phone

  datatype Enrolment = Enrolment(name: string, grade: string, phone: string) {
    function Get(f: Field): string {
      match f
      case Name => name
      case Grade => grade
      case Phone => phone
    }

    /** `setForm({ ...form, [f]: v })`. */
    function Set(f: Field, v: string): (r: Enrolment)
      ensures r.Get(f) == v
      ensures forall g :: g != f ==> r.Get(g) == Get(g)
    {
      match f
      case Name => this.(name := v)
      case Grade => this.(grade := v)
      case Phone => this.(phone := v)
    }
  }

  const BlankEnrolment := Enrolment("", "", "")

  const NameRequired := "Name is required"
  const GradeRequired := "Grade is required"
  const PhoneRequired := "Phone number is required"
  const PhoneMalformed := "Phone must be a 10-digit number"

  /** `/^\d{10}$/.test(s)`: exactly ten ASCII digits and nothing else (without the
      `m` flag `$` matches only at the very end, and `\d` is ASCII without `u`). */
  predicate IsTenDigits(s: string) {
    |s| == 10 && AllDigits(s)
  }

  /** Ten digits are never whitespace only. */
  lemma DigitsAreNotBlank(s: string)
    ensures IsTenDigits(s) ==> !AllWhitespace(s)
  {
    if IsTenDigits(s) {
      assert IsAsciiDigit(s[0]);
    }
  }

  /** The message `validate()` records for one field, if any. */
  function FieldError(f: Field, v: string): (e: Option<string>)
    ensures e.Some? <==> if f == Phone then !IsTenDigits(v) else AllWhitespace(v)
    ensures e.Some? ==> e.value == match f
      case Name => NameRequired
      case Grade => GradeRequired
      case Phone => if AllWhitespace(v) then PhoneRequired else PhoneMalformed
  {
    DigitsAreNotBlank(v);
    match f
    case Name => if AllWhitespace(v) then Some(NameRequired) else None
    case Grade => if AllWhitespace(v) then Some(GradeRequired) else None
    case Phone =>
      if AllWhitespace(v) then Some(PhoneRequired)
      else if !IsTenDigits(v) then Some(PhoneMalformed)
      else None
  }

  /** `validate()`: name and grade are required to be non-blank; the phone is
      required and must then be ten digits as typed, untrimmed. */
  function Validate(form: Enrolment): (errs: map<Field, string>)
    ensures Name in errs <==> AllWhitespace(form.name)
    ensures Grade in errs <==> AllWhitespace(form.grade)
    ensures Phone in errs <==> !IsTenDigits(form.phone)
    ensures Name in errs ==> errs[Name] == NameRequired
    ensures Grade in errs ==> errs[Grade] == GradeRequired
    ensures Phone in errs ==> errs[Phone] == if AllWhitespace(form.phone) then PhoneRequired else PhoneMalformed
  {
    map f | f in {Name, Grade, Phone} && FieldError(f, form.Get(f)).Some? :: FieldError(f, form.Get(f)).value
  }

  /** The form passes exactly when name and grade hold some non-whitespace
      character and the phone is ten digits. */
  lemma ValidIff(form: Enrolment)
    ensures Validate(form) == map[] <==>
      !AllWhitespace(form.name) && !AllWhitespace(form.grade) && IsTenDigits(form.phone)
  {
    var errs := Validate(form);
    if !AllWhitespace(form.name) && !AllWhitespace(form.grade) && IsTenDigits(form.phone) {
      assert errs.Keys == {} by {
        forall f | f in errs ensures false {
          match f
          case Name =>
          case Grade =>
          case Phone =>
        }
      }
    }
  }

  /** The digit check sees the phone untrimmed: ten digits pass it, the same
      digits after a leading space are reported as malformed. */
  lemma PaddedPhoneRejected(form: Enrolment, c: char)
    requires IsTenDigits(form.phone) && IsWhitespace(c)
    ensures Phone !in Validate(form)
    ensures var padded := form.(phone := [c] + form.phone);
      Phone in Validate(padded) && Validate(padded)[Phone] == PhoneMalformed
  {
    var padded := [c] + form.phone;
    assert padded[1] == form.phone[0];
    assert !IsWhitespace(padded[1]);
  }

  // ---------------------------------------------------------------------------
  // The component's state and its handlers.

  const SubmittedText := "\U{2705} Submitted successfully!"
  const FailedText := "\U{274C} Something went wrong."
  const ServerErrorText := "\U{274C} Server error. Try again later."

  /** The form, the per-field error messages and the status line. */
  datatype State = State(form: Enrolment, errors: map<Field, string>, status: string)

  const Initial := State(BlankEnrolment, map[], "")

  /** `handleChange`: the field takes the new value and its error becomes the
      empty message; the status line stays. */
  function HandleChange(st: State, f: Field, v: string): (r: State)
    ensures r.form.Get(f) == v
    ensures forall g :: g != f ==> r.form.Get(g) == st.form.Get(g)
    ensures r.errors.Keys == st.errors.Keys + {f} && r.errors[f] == []
    ensures forall g :: g in st.errors && g != f ==> r.errors[g] == st.errors[g]
    ensures r.status == st.status
  {
    st.(form := st.form.Set(f, v), errors := st.errors[f := ""])
  }

  /** The state after a submit and the form it posted, if any. */
  datatype Attempt = Attempt(state: State, sent: Option<Enrolment>)

  /** The backend's JSON reports `status: "success"`; the HTTP `ok` flag is not read. */
  predicate ReportsSuccess(reply: Reply) {
    reply.status == Some("success")
  }

  /** `handleSubmit`, with `outcome` standing for the `fetch` and `res.json()` pair. */
  function HandleSubmit(st: State, outcome: Outcome): (r: Attempt)
    // an invalid form records its errors and posts nothing
    ensures r.sent.Some? <==> Validate(st.form) == map[]
    ensures r.sent.None? ==> r.state == st.(errors := Validate(st.form), status := "")
    // a valid form is posted as typed, untrimmed
    ensures r.sent.Some? ==> r.sent.value == st.form
    // only a reported success clears the form and the errors
    ensures r.sent.Some? && outcome.Answered? && ReportsSuccess(outcome.reply) ==>
      r.state == State(BlankEnrolment, map[], SubmittedText)
    ensures r.sent.Some? && outcome.Answered? && !ReportsSuccess(outcome.reply) ==>
      r.state == st.(status := FailedText)
    ensures r.sent.Some? && outcome.Threw? ==> r.state == st.(status := ServerErrorText)
  {
    var errs := Validate(st.form);
    if errs != map[] then
      Attempt(st.(errors := errs, status := ""), None)
    else
      var after :=
        match outcome
        case Threw => st.(status := ServerErrorText)
        case Answered(reply) =>
          if reply.status == Some("success") then State(BlankEnrolment, map[], SubmittedText)
          else st.(status := FailedText);
      Attempt(after, Some(st.form))
  }

  /** Unlike the contact form, this handler ignores the HTTP status: an error
      response whose body says "success" counts as a success, and a 200 without
      it as a failure. */
  lemma OkFlagIgnored(st: State, code: int, status: Option<string>, message: Option<string>)
    ensures HandleSubmit(st, Answered(Reply(true, code, status, message))) ==
            HandleSubmit(st, Answered(Reply(false, code, status, message)))
  {
  }

  /** Whatever the outcome, a valid form leaves errors untouched unless it
      succeeded, and the form is cleared exactly on a reported success. */
  lemma FormClearedOnlyOnSuccess(st: State, outcome: Outcome)
    requires Validate(st.form) == map[]
    ensures var r := HandleSubmit(st, outcome).state;
      (r.form == BlankEnrolment && r.errors == map[]) || (r.form == st.form && r.errors == st.errors)
    ensures var r := HandleSubmit(st, outcome).state;
      r.status == SubmittedText <==> outcome.Answered? && ReportsSuccess(outcome.reply)
  {
  }

  /** A blank form never reaches the backend: after a submit from the initial
      state all three fields are reported. */
  lemma InitialSubmitReportsAll(outcome: Outcome)
    ensures HandleSubmit(Initial, outcome).sent == None
    ensures HandleSubmit(Initial, outcome).state.errors ==
      map[Name := NameRequired, Grade := GradeRequired, Phone := PhoneRequired]
  {
    var errs := Validate(BlankEnrolment);
    assert errs.Keys == {Name, Grade, Phone} by {
      forall f ensures f in errs { match f case Name => case Grade => case Phone => }
    }
  }
}

=== FILE: js_text.dfy ===
/** The few JavaScript string primitives the site's form and chat code relies on
    (`trim`, ASCII `toLowerCase`, `includes`, decimal formatting of a number),
    restated over Dafny strings, which are sequences of Unicode scalar values. */
module JsText {

  /** The characters ECMAScript's `String.prototype.trim` removes: WhiteSpace
      (TAB, VT, FF, ZWNBSP and every space separator of category Zs) and
      LineTerminator (LF, CR, LINE SEPARATOR, PARAGRAPH SEPARATOR). */
  predicate IsWhitespace(c: char) {
    || c == '\t' || c == '\n' || c == '\U{000B}' || c == '\U{000C}' || c == '\r'
    || c == ' ' || c == '\U{00A0}' || c == '\U{1680}'
    || ('\U{2000}' <= c <= '\U{200A}')
    || c == '\U{2028}' || c == '\U{2029}' || c == '\U{202F}' || c == '\U{205F}'
    || c == '\U{3000}' || c == '\U{FEFF}'
  }

  predicate AllWhitespace(s: string) {
    forall i :: 0 <= i < |s| ==> IsWhitespace(s[i])
  }

  /** Drops leading whitespace. */
  function TrimStart(s: string): (r: string)
    ensures |r| <= |s| && r == s[|s| - |r|..]
    ensures AllWhitespace(s[..|s| - |r|])
    ensures r == [] || !IsWhitespace(r[0])
  {
    if |s| > 0 && IsWhitespace(s[0]) then
      var r := TrimStart(s[1..]);
      assert s[..|s| - |r|] == [s[0]] + s[1..][..|s| - 1 - |r|];
      r
    else
      s
  }

  /** Drops trailing whitespace. */
  function TrimEnd(s: string): (r: string)
    ensures |r| <= |s| && r == s[..|r|]
    ensures AllWhitespace(s[|r|..])
    ensures r == [] || !IsWhitespace(r[|r| - 1])
  {
    if |s| > 0 && IsWhitespace(s[|s| - 1]) then
      var r := TrimEnd(s[..|s| - 1]);
      assert s[|r|..] == s[..|s| - 1][|r|..] + [s[|s| - 1]];
      r
    else
      s
  }

  /** `t` is `s` with a whitespace-only prefix and a whitespace-only suffix
      removed, and `t` itself neither starts nor ends with whitespace. */
  ghost predicate IsTrimmingOf(s: string, t: string) {
    && (exists i :: TrimmedAt(s, t, i))
    && (t == [] || (!IsWhitespace(t[0]) && !IsWhitespace(t[|t| - 1])))
  }

  ghost predicate TrimmedAt(s: string, t: string, i: int) {
    && 0 <= i && i + |t| <= |s|
    && t == s[i..i + |t|]
    && (forall k :: 0 <= k < i ==> IsWhitespace(s[k]))
    && (forall k :: i + |t| <= k < |s| ==> IsWhitespace(s[k]))
  }

  /** JavaScript's `s.trim()`. */
  function Trim(s: string): (r: string)
    ensures IsTrimmingOf(s, r)
  {
    var a := TrimStart(s);
    var r := TrimEnd(a);
    TrimmedAtParts(s, a, r);
    r
  }

  /** Whitespace dropped from the front of `s` and then from the back of the rest
      leaves a trimming of `s` at the cut. */
  lemma TrimmedAtParts(s: string, a: string, r: string)
    requires |a| <= |s| && a == s[|s| - |a|..] && AllWhitespace(s[..|s| - |a|])
    requires |r| <= |a| && r == a[..|r|] && AllWhitespace(a[|r|..])
    ensures TrimmedAt(s, r, |s| - |a|)
  {
    var i := |s| - |a|;
    forall k | 0 <= k < i ensures IsWhitespace(s[k]) {
      assert s[..i][k] == s[k];
    }
    forall k | i + |r| <= k < |s| ensures IsWhitespace(s[k]) {
      assert a[|r|..][k - (i + |r|)] == s[k];
    }
  }

  /** The trimming is unique: any `t` cut out of `s` that way is `Trim(s)`. */
  lemma TrimUnique(s: string, t: string)
    requires IsTrimmingOf(s, t)
    ensures t == Trim(s)
  {
    var r := Trim(s);
    var i :| TrimmedAt(s, t, i);
    var j :| TrimmedAt(s, r, j);
    if t == [] || r == [] {
      EmptyTrimming(s, t, i);
      EmptyTrimming(s, r, j);
    } else {
      SameCut(s, t, i, r, j);
    }
  }

  /** Two non-empty trimmings of `s` start and end at the same places. */
  lemma SameCut(s: string, t: string, i: int, r: string, j: int)
    requires TrimmedAt(s, t, i) && TrimmedAt(s, r, j) && t != [] && r != []
    requires !IsWhitespace(t[0]) && !IsWhitespace(t[|t| - 1])
    requires !IsWhitespace(r[0]) && !IsWhitespace(r[|r| - 1])
    ensures t == r
  {
    // both start at the first and end at the last non-whitespace character of s
    assert t[0] == s[i] && r[0] == s[j];
    assert i == j;
    assert t[|t| - 1] == s[i + |t| - 1] && r[|r| - 1] == s[j + |r| - 1];
    assert |t| == |r|;
  }

  /** A trimming is empty exactly when `s` is all whitespace. */
  lemma EmptyTrimming(s: string, t: string, i: int)
    requires TrimmedAt(s, t, i)
    requires t == [] || (!IsWhitespace(t[0]) && !IsWhitespace(t[|t| - 1]))
    ensures t == [] <==> AllWhitespace(s)
  {
    if t == [] {
    } else {
      assert s[i] == t[0];
    }
  }

  /** `!s.trim()` holds in JavaScript exactly when `s` is whitespace only, so the
      handlers' blank-input tests are stated as `AllWhitespace`. */
  lemma TrimEmptyIff(s: string)
    ensures Trim(s) == [] <==> AllWhitespace(s)
  {
    var r := Trim(s);
    var i :| TrimmedAt(s, r, i);
    EmptyTrimming(s, r, i);
  }

  /** The classes `[a-zA-Z]` and `\d` (ASCII, as in a pattern without the `u` flag). */
  predicate IsAsciiLetter(c: char) {
    ('a' <= c <= 'z') || ('A' <= c <= 'Z')
  }

  predicate IsAsciiDigit(c: char) {
    '0' <= c <= '9'
  }

  /** ASCII-only lower-casing of one character. */
  function LowerChar(c: char): char {
    if 'A' <= c <= 'Z' then (c as int + 32) as char else c
  }

  /** `s.toLowerCase()` restricted to the ASCII letters. */
  function ToLower(s: string): (r: string)
    ensures |r| == |s|
    ensures forall i :: 0 <= i < |s| ==> r[i] == LowerChar(s[i])
  {
    seq(|s|, i requires 0 <= i < |s| => LowerChar(s[i]))
  }

  /** Lower-casing twice is lower-casing once. */
  lemma ToLowerIdempotent(s: string)
    ensures ToLower(ToLower(s)) == ToLower(s)
  {
    var once := ToLower(s);
    forall i | 0 <= i < |s| ensures ToLower(once)[i] == once[i] {
      assert !('A' <= once[i] <= 'Z');
    }
  }

  /** `k` occurs in `s` starting at index `i`. */
  predicate OccursAt(s: string, k: string, i: int) {
    0 <= i && i + |k| <= |s| && s[i..i + |k|] == k
  }

  /** `s.includes(k)`: a left-to-right scan for an occurrence of `k`. */
  function Includes(s: string, k: string): (b: bool)
    ensures b <==> exists i :: OccursAt(s, k, i)
  {
    IncludesFrom(s, k, 0)
  }

  function IncludesFrom(s: string, k: string, start: nat): (b: bool)
    requires start <= |s| + 1
    ensures b <==> exists i :: start <= i && OccursAt(s, k, i)
    decreases |s| + 1 - start
  {
    if start + |k| > |s| then
      assert forall i :: start <= i ==> !OccursAt(s, k, i);
      false
    else if s[start..start + |k|] == k then
      assert OccursAt(s, k, start);
      true
    else
      assert !OccursAt(s, k, start);
      IncludesFrom(s, k, start + 1)
  }

  predicate AllDigits(s: string) {
    forall i :: 0 <= i < |s| ==> IsAsciiDigit(s[i])
  }

  /** The number a string of decimal digits denotes, most significant first. */
  function DecimalValue(s: string): nat
    requires AllDigits(s)
  {
    if s == [] then 0 else DecimalValue(s[..|s| - 1]) * 10 + (s[|s| - 1] as int - '0' as int)
  }

  /** Digits only, at least one, and no leading zero unless the number is 0. */
  predicate IsCanonicalDecimal(s: string) {
    |s| >= 1 && AllDigits(s) && (s[0] == '0' ==> |s| == 1)
  }

  /** The decimal digits of `n`, as JavaScript writes an integer in a template string. */
  function NatToDecimal(n: nat): (r: string)
    ensures IsCanonicalDecimal(r)
    ensures DecimalValue(r) == n
    decreases n
  {
    var d := ['0' + (n % 10) as char];
    if n < 10 then d
    else
      var h := NatToDecimal(n / 10);
      assert (h + d)[..|h|] == h;
      h + d
  }

  /** A digit string without a leading zero, other than "0" itself, denotes a
      positive number. */
  lemma {:induction false} LeadingDigitPositive(s: string)
    requires |s| >= 1 && AllDigits(s) && s[0] != '0'
    ensures DecimalValue(s) >= 1
    decreases |s|
  {
    if |s| > 1 {
      LeadingDigitPositive(s[..|s| - 1]);
    }
  }

  /** The canonical decimal writing of a number is unique: it is `NatToDecimal`. */
  lemma {:induction false} NatToDecimalUnique(s: string, n: nat)
    requires IsCanonicalDecimal(s) && DecimalValue(s) == n
    ensures s == NatToDecimal(n)
    decreases |s|
  {
    var h := s[..|s| - 1];
    assert s == h + [s[|s| - 1]];
    if |s| > 1 {
      assert h[0] == s[0] != '0';
      LeadingDigitPositive(h);
      NatToDecimalUnique(h, n / 10);
    }
  }
}

=== FILE: outcomes.dfy ===
/** Values the site's handlers receive from code outside the model: optional
    JSON fields and the result of one `fetch` followed by `response.json()`. */
module Outcomes {

  datatype Option<+T> = None | Some(value: T)

  /** JavaScript truthiness of an optional string field: present and non-empty. */
  predicate Truthy(m: Option<string>) {
    m.Some? && m.value != []
  }

  /** `m || fallback` for an optional string field. */
  function OrElse(m: Option<string>, fallback: string): (r: string)
    ensures Truthy(m) ==> r == m.value
    ensures !Truthy(m) ==> r == fallback
  {
    if Truthy(m) then m.value else fallback
  }

  /** A decoded JSON reply whose body is not `null`: the HTTP `ok` flag and
      status code of the response, and the `status` and `message` fields of its
      body. `status` is None when absent or not a string, since only the
      comparison `=== "success"` reads it. `message` is a string, or None when
      it is absent or a falsy non-string (`null`, `false`, `0`); a truthy
      non-string message is outside the model. */
  datatype Reply = Reply(ok: bool, code: int, status: Option<string>, message: Option<string>)

  /** What one awaited `fetch(...)` plus `response.json()` and the reads of the
      body's fields yield: a decoded reply, or an exception. A network failure,
      a body that is not JSON, and a JSON `null` body (reading `result.status`
      or `result.message` throws) are all `Threw`. */
  datatype Outcome = Answered(reply: Reply) | Threw

  /** The literal test `response.ok && result.status === "success"`. */
  predicate IsAcceptedReply(r: Reply) {
    r.ok && r.status == Some("success")
  }
}

=== FILE: sanitizer.dfy ===
/** `sanitizeInput`, the tag-stripping sanitiser applied to every contact field.
    The contact form and the API route each carry an identical copy of it; here
    it is defined once and imported by both. */
module Sanitizer {
  import opened JsText

  /** A JavaScript value as far as the sanitiser can tell: a string, or anything else
      (`undefined`, `null`, a number, an object). */
  datatype Input = Str(s: string) | Other

  /** The length a sanitised field is cut to. */
  const MaxLength: nat := 1000

  predicate IsBracket(c: char) {
    c == '<' || c == '>'
  }

  predicate BracketFree(s: string) {
    forall i :: 0 <= i < |s| ==> !IsBracket(s[i])
  }

  /** `s.replace(/[<>]/g, "")`: every `<` and `>` removed, the rest kept in order
      (`StripBracketsCounts`, `StripBracketsAppend`). */
  function StripBrackets(s: string): (r: string)
    ensures BracketFree(r)
    ensures |r| <= |s|
  {
    if s == [] then []
    else
      var rest := StripBrackets(s[1..]);
      if IsBracket(s[0]) then rest else [s[0]] + rest
  }

  /** Every character other than a bracket keeps its number of occurrences. */
  lemma {:induction false} StripBracketsCounts(s: string)
    ensures forall c :: !IsBracket(c) ==> multiset(StripBrackets(s))[c] == multiset(s)[c]
    ensures forall c :: IsBracket(c) ==> multiset(StripBrackets(s))[c] == 0
  {
    if s != [] {
      StripBracketsCounts(s[1..]);
      assert s == [s[0]] + s[1..];
    }
  }

  /** Removing brackets works piecewise, so it keeps the order of what remains. */
  lemma {:induction false} StripBracketsAppend(a: string, b: string)
    ensures StripBrackets(a + b) == StripBrackets(a) + StripBrackets(b)
  {
    if a == [] {
      assert a + b == b;
    } else {
      assert (a + b)[1..] == a[1..] + b;
      StripBracketsAppend(a[1..], b);
    }
  }

  /** Text that holds no bracket is left as it is. */
  lemma {:induction false} StripBracketsFixes(s: string)
    requires BracketFree(s)
    ensures StripBrackets(s) == s
  {
    if s != [] {
      StripBracketsFixes(s[1..]);
    }
  }

  function Min(a: int, b: int): int {
    if a <= b then a else b
  }

  /** `sanitizeInput(input)`: a non-string gives "", a string is trimmed, has its
      brackets removed and is cut to its first 1000 characters. */
  function Sanitize(x: Input): (r: string)
    ensures x.Other? ==> r == []
    ensures |r| <= MaxLength
    ensures BracketFree(r)
    ensures x.Str? ==> r <= StripBrackets(Trim(x.s))
    ensures x.Str? ==> |r| == Min(MaxLength, |StripBrackets(Trim(x.s))|)
  {
    match x
    case Other => []
    case Str(s) =>
      var t := StripBrackets(Trim(s));
      if |t| <= MaxLength then t else t[..MaxLength]
  }

  /** A string sanitises to "" exactly when its trimmed text is brackets only;
      this is why `"<<"` is reported as a missing field rather than a short one. */
  lemma SanitizeEmptyIff(s: string)
    ensures Sanitize(Str(s)) == [] <==> forall i :: 0 <= i < |Trim(s)| ==> IsBracket(Trim(s)[i])
  {
    var t := Trim(s);
    if forall i :: 0 <= i < |t| ==> IsBracket(t[i]) {
      BracketsOnlyStrip(t);
    } else {
      var i :| 0 <= i < |t| && !IsBracket(t[i]);
      StripBracketsCounts(t);
      assert t[i] in multiset(t);
    }
  }

  lemma {:induction false} BracketsOnlyStrip(t: string)
    requires forall i :: 0 <= i < |t| ==> IsBracket(t[i])
    ensures StripBrackets(t) == []
  {
    if t != [] {
      BracketsOnlyStrip(t[1..]);
    }
  }

  /** The sanitiser is neither trimming nor idempotent: `"a <"` becomes `"a "`,
      which a second pass would shorten to `"a"`; the same holds with any
      character in place of `a` that is neither whitespace nor a bracket. */
  lemma SanitizeNotIdempotent(c: char)
    requires !IsWhitespace(c) && !IsBracket(c)
    ensures Sanitize(Str([c, ' ', '<'])) == [c, ' ']
    ensures Sanitize(Str(Sanitize(Str([c, ' ', '<'])))) == [c]
  {
    SanitizeBracketExample(c);
    SanitizeSpaceExample(c);
  }

  lemma SanitizeBracketExample(c: char)
    requires !IsWhitespace(c) && !IsBracket(c)
    ensures Sanitize(Str([c, ' ', '<'])) == [c, ' ']
  {
    var s := [c, ' ', '<'];
    assert TrimmedAt(s, s, 0);
    TrimUnique(s, s);
    assert s == [c, ' '] + ['<'];
    StripBracketsAppend([c, ' '], ['<']);
    StripBracketsFixes([c, ' ']);
    BracketsOnlyStrip(['<']);
  }

  lemma SanitizeSpaceExample(c: char)
    requires !IsWhitespace(c) && !IsBracket(c)
    ensures Sanitize(Str([c, ' '])) == [c]
  {
    var s := [c, ' '];
    assert s[0..1] == [c];
    assert TrimmedAt(s, [c], 0);
    TrimUnique(s, [c]);
    StripBracketsFixes([c]);
  }
}

=== FILE: whatsapp_chat.dfy ===
/** The chat widget: `getAutoReply`, an ordered table of keyword groups searched
    on the lower-cased message where the first group with a keyword occurring in
    it decides the reply, and `handleSend`, which appends the user's message and
    the bot's reply to the transcript. */
module WhatsAppChat {
  import opened JsText
  import opened Outcomes

  /** One `if` of `getAutoReply`: any of these substrings selects `response`. */
  datatype Rule = Rule(keywords: seq<string>, response: string)

  const PricingReply := "Our tuition fees vary based on the grade level and session frequency. We offer affordable packages starting from AED 200/month. Would you like to speak with our team for a customized quote? You can reach us on WhatsApp for more details!"
  const TimingReply := "We offer flexible timings! Classes are available from 4 PM to 9 PM on weekdays and 10 AM to 6 PM on weekends. We can work around your child's school schedule."
  const GradeReply := "We teach mathematics to students from Grade 1 to Grade 12. Our curriculum covers school syllabus (CBSE, ICSE, British, American) as well as foundation building for competitive exams."
  const ModeReply := "We offer both online and offline classes! Online classes are conducted via Zoom with interactive whiteboards. Offline classes are available in select locations."
  const TrialReply := "Yes! We offer a FREE demo class so your child can experience our teaching style. Would you like to book a trial session? Just share your preferred timing!"
  const TeacherReply := "Our teachers are experienced educators with 5+ years of teaching experience. They specialize in making math fun and easy to understand for kids of all levels."
  const ContactReply := "You can reach us directly on WhatsApp at +971 54 301 4873. Click the WhatsApp button below to start a conversation with our team!"
  /** The source file holds the waving-hand emoji as four mis-decoded characters;
      they are kept as written. */
  const GreetingReply := "Hello! Welcome to Math Kidz! \U{00F0}\U{0178}\U{2018}\U{2039} How can I help you today? Feel free to ask about our classes, timings, fees, or anything else!"
  const ThanksReply := "You're welcome! \U{00F0}\U{0178}\U{02DC}\U{0160} If you have any more questions, feel free to ask. We're here to help your child excel in mathematics!"
  const EnrolReply := "Great! To enroll your child, please fill out the contact form on our website or reach out to us on WhatsApp. We'll guide you through the simple registration process!"
  const DefaultReply := "Thank you for your message! For detailed information, please connect with us on WhatsApp where our team can assist you personally. Is there anything specific about our math tuition you'd like to know - like fees, timings, or grade levels?"

  /** The ten keyword groups in the order they are checked. */
  const Rules: seq<Rule> := [
    Rule(["price", "cost", "fee", "charge"], PricingReply),
    Rule(["timing", "schedule", "time", "slot"], TimingReply),
    Rule(["grade", "class", "age", "level"], GradeReply),
    Rule(["online", "offline", "mode"], ModeReply),
    Rule(["trial", "demo", "free"], TrialReply),
    Rule(["teacher", "tutor", "faculty"], TeacherReply),
    Rule(["contact", "call", "phone", "whatsapp"], ContactReply),
    Rule(["hello", "hi", "hey", "good"], GreetingReply),
    Rule(["thank", "thanks"], ThanksReply),
    Rule(["enroll", "register", "join", "admission"], EnrolReply)
  ]

  /** Some keyword of `rule` is a substring of `text`. */
  predicate RuleMatches(rule: Rule, text: string) {
    exists j :: 0 <= j < |rule.keywords| && Includes(text, rule.keywords[j])
  }

  /** Rule `i` is the first rule of the table that matches `text`. */
  predicate FirstMatchAt(rules: seq<Rule>, text: string, i: int) {
    0 <= i < |rules| && RuleMatches(rules[i], text)
    && forall j :: 0 <= j < i ==> !RuleMatches(rules[j], text)
  }

  /** Index of the first matching rule at or after `from`, or `|rules|` if none matches. */
  function FirstMatch(rules: seq<Rule>, text: string, from: nat): (i: nat)
    requires from <= |rules|
    ensures from <= i <= |rules|
    ensures i < |rules| ==> RuleMatches(rules[i], text)
    ensures forall j :: from <= j < i ==> !RuleMatches(rules[j], text)
    decreases |rules| - from
  {
    if from == |rules| then from
    else if RuleMatches(rules[from], text) then from
    else FirstMatch(rules, text, from + 1)
  }

  /** `getAutoReply(message)`: the reply of the first rule with a keyword in the
      lower-cased message, or the default reply when no rule has one. */
  function GetAutoReply(message: string): (reply: string)
    ensures (exists i :: FirstMatchAt(Rules, ToLower(message), i)) ==>
      exists i :: FirstMatchAt(Rules, ToLower(message), i) && reply == Rules[i].response
    ensures (forall i :: 0 <= i < |Rules| ==> !RuleMatches(Rules[i], ToLower(message))) ==> reply == DefaultReply
    ensures reply == DefaultReply || exists i :: 0 <= i < |Rules| && reply == Rules[i].response
  {
    var text := ToLower(message);
    var i := FirstMatch(Rules, text, 0);
    if i < |Rules| then
      assert FirstMatchAt(Rules, text, i);
      Rules[i].response
    else
      DefaultReply
  }

  /** The reply ignores ASCII case. */
  lemma ReplyIgnoresCase(message: string)
    ensures GetAutoReply(message) == GetAutoReply(ToLower(message))
  {
    ToLowerIdempotent(message);
  }

  /** The reply is one of the eleven fixed texts. */
  lemma ReplyIsCanned(message: string)
    ensures GetAutoReply(message) in {PricingReply, TimingReply, GradeReply, ModeReply, TrialReply,
                                      TeacherReply, ContactReply, GreetingReply, ThanksReply, EnrolReply, DefaultReply}
  {
  }

  /** Keywords are matched as substrings and case is ignored. */
  lemma PriceQuestionAnswered()
    ensures GetAutoReply("What is your price?") == PricingReply
  {
    var t := "what is your price?";
    assert ToLower("What is your price?") == t;
    assert OccursAt(t, Rules[0].keywords[0], 13);
    assert Includes(t, Rules[0].keywords[0]);
  }

  /** Table order decides between rules: a greeting that asks for the price gets
      the pricing reply, the first rule of the table. */
  lemma PricingBeatsGreeting()
    ensures GetAutoReply("hello, what's the price") == PricingReply
  {
    var t := "hello, what's the price";
    assert ToLower(t) == t;
    assert OccursAt(t, Rules[0].keywords[0], 18);
    assert Includes(t, Rules[0].keywords[0]);
  }

  /** A greeting that no earlier rule claims gets the greeting reply. */
  lemma HelloIsAGreeting()
    ensures GetAutoReply("hello there") == GreetingReply
  {
    var t := "hello there";
    assert ToLower(t) == t;
    NoRuleBefore(t, 7);
    assert OccursAt(t, Rules[7].keywords[0], 0);
    assert Includes(t, Rules[7].keywords[0]);
    assert FirstMatchAt(Rules, t, 7);
  }

  /** Substring matching fires inside words: "this" contains "hi" and is greeted. */
  lemma ThisIsAGreeting()
    ensures GetAutoReply("this") == GreetingReply
  {
    var t := "this";
    assert ToLower(t) == t;
    NoRuleBefore(t, 7);
    assert OccursAt(t, Rules[7].keywords[1], 1);
    assert Includes(t, Rules[7].keywords[1]);
    assert FirstMatchAt(Rules, t, 7);
  }

  /** "message" contains "age" and gets the grade reply. */
  lemma MessageIsAboutGrades()
    ensures GetAutoReply("message") == GradeReply
  {
    var t := "message";
    assert ToLower(t) == t;
    NoRuleBefore(t, 2);
    assert OccursAt(t, Rules[2].keywords[2], 4);
    assert Includes(t, Rules[2].keywords[2]);
    assert FirstMatchAt(Rules, t, 2);
  }

  /** Text with no keyword at all gets the default reply. */
  lemma GibberishGetsDefault()
    ensures GetAutoReply("asdfasdf") == DefaultReply
  {
    var t := "asdfasdf";
    assert ToLower(t) == t;
    NoRuleBefore(t, |Rules|);
  }

  /** `k` cannot occur in `t`: no position of `t` starts with `k`'s first two characters. */
  predicate StartsNowhere(t: string, k: string) {
    |k| >= 2 && forall i :: 0 <= i && i + |k| <= |t| ==> t[i] != k[0] || t[i + 1] != k[1]
  }

  /** None of the first `n` rules has a keyword in `t`. */
  lemma NoRuleBefore(t: string, n: nat)
    requires n <= |Rules|
    requires forall j, m :: 0 <= j < n && 0 <= m < |Rules[j].keywords| ==> StartsNowhere(t, Rules[j].keywords[m])
    ensures forall j :: 0 <= j < n ==> !RuleMatches(Rules[j], t)
  {
    forall j, m | 0 <= j < n && 0 <= m < |Rules[j].keywords| ensures !Includes(t, Rules[j].keywords[m]) {
      NotIncluded(t, Rules[j].keywords[m]);
    }
  }

  /** A keyword whose first two characters occur together nowhere in `t` is not in `t`. */
  lemma NotIncluded(t: string, k: string)
    requires StartsNowhere(t, k)
    ensures !Includes(t, k)
  {
    forall i | 0 <= i && i + |k| <= |t| ensures !OccursAt(t, k, i) {
      assert t[i..i + |k|][0] == t[i];
      assert t[i..i + |k|][1] == t[i + 1];
    }
  }

  // ---------------------------------------------------------------------------
  // The transcript.

  datatype Sender = User | Bot

  /** One bubble of the transcript; its display time is left out. */
  datatype ChatMessage = ChatMessage(id: int, text: string, sender: Sender)

  /** The widget's state: the transcript and the text box. */
  datatype Chat = Chat(messages: seq<ChatMessage>, input: string)

  const Welcome := "Hello! \U{00F0}\U{0178}\U{2018}\U{2039} Welcome to Math Kidz! How can I help you today?"

  const InitialChat := Chat([ChatMessage(1, Welcome, Bot)], "")

  /** `handleSend`, with the bot's delayed reply appended at once: whitespace-only
      input changes nothing; otherwise the raw text is appended as a user message
      numbered `length + 1`, the reply to it as a bot message numbered
      `length + 2`, and the text box is cleared. */
  function HandleSend(chat: Chat): (r: Chat)
    ensures AllWhitespace(chat.input) ==> r == chat
    ensures !AllWhitespace(chat.input) ==>
      && r.input == []
      && r.messages == chat.messages + [ChatMessage(|chat.messages| + 1, chat.input, User),
                                        ChatMessage(|chat.messages| + 2, GetAutoReply(chat.input), Bot)]
  {
    if AllWhitespace(chat.input) then chat
    else
      var n := |chat.messages|;
      var user := ChatMessage(n + 1, chat.input, User);
      var bot := ChatMessage(n + 2, GetAutoReply(chat.input), Bot);
      Chat(chat.messages + [user, bot], [])
  }

  /** Every message's id is its position plus one. */
  predicate NumberedInOrder(messages: seq<ChatMessage>) {
    forall k :: 0 <= k < |messages| ==> messages[k].id == k + 1
  }

  /** The transcript is the welcome followed by exchanges: each user message
      holds non-blank text and is directly followed by the bot's reply to it. */
  predicate IsConversation(messages: seq<ChatMessage>) {
    && |messages| % 2 == 1
    && messages[0] == ChatMessage(1, Welcome, Bot)
    && NumberedInOrder(messages)
    && forall k :: 0 <= k < |messages| / 2 ==> ExchangeAt(messages, k)
  }

  /** The `k`-th exchange: a user message at `2k + 1`, the reply at `2k + 2`. */
  predicate ExchangeAt(messages: seq<ChatMessage>, k: int)
    requires 0 <= k && 2 * k + 2 < |messages|
  {
    var q, a := messages[2 * k + 1], messages[2 * k + 2];
    && q.sender == User && !AllWhitespace(q.text)
    && a.sender == Bot && a.text == GetAutoReply(q.text)
  }

  lemma InitialIsConversation()
    ensures IsConversation(InitialChat.messages)
  {
  }

  /** Sending keeps the transcript a well-numbered conversation: ids stay unique
      and in order, and every question is answered right after it. */
  lemma SendKeepsConversation(chat: Chat)
    requires IsConversation(chat.messages)
    ensures IsConversation(HandleSend(chat).messages)
  {
    if !AllWhitespace(chat.input) {
      var n := |chat.messages|;
      ExchangeExtends(chat.messages, ChatMessage(n + 1, chat.input, User),
                      ChatMessage(n + 2, GetAutoReply(chat.input), Bot));
    }
  }

  lemma ExchangeExtends(m: seq<ChatMessage>, q: ChatMessage, a: ChatMessage)
    requires IsConversation(m)
    requires q == ChatMessage(|m| + 1, q.text, User) && !AllWhitespace(q.text)
    requires a == ChatMessage(|m| + 2, GetAutoReply(q.text), Bot)
    ensures IsConversation(m + [q, a])
  {
    var r := m + [q, a];
    var n := |m|;
    forall k | 0 <= k < |r| / 2 ensures ExchangeAt(r, k) {
      if 2 * k + 2 < n {
        assert ExchangeAt(m, k);
        assert r[2 * k + 1] == m[2 * k + 1] && r[2 * k + 2] == m[2 * k + 2];
      } else {
        assert 2 * k + 1 == n;
      }
    }
    assert NumberedInOrder(r);
  }

  // ---------------------------------------------------------------------------
  // The delayed reply.

  /** A send as written: the user message goes in at once, and the reply the
      timer appends a second later is fixed now, its id taken from the
      transcript length the send saw. */
  datatype Sent = Sent(chat: Chat, pending: Option<ChatMessage>)

  function SendAsWritten(chat: Chat): (r: Sent)
    ensures AllWhitespace(chat.input) ==> r == Sent(chat, None)
    ensures !AllWhitespace(chat.input) ==>
      && r.chat == Chat(chat.messages + [ChatMessage(|chat.messages| + 1, chat.input, User)], [])
      && r.pending == Some(ChatMessage(|chat.messages| + 2, GetAutoReply(chat.input), Bot))
  {
    if AllWhitespace(chat.input) then Sent(chat, None)
    else
      var n := |chat.messages|;
      var user := ChatMessage(n + 1, chat.input, User);
      Sent(Chat(chat.messages + [user], []), Some(ChatMessage(n + 2, GetAutoReply(chat.input), Bot)))
  }

  /** The timer firing: the scheduled reply is appended as it stands. */
  function Deliver(chat: Chat, reply: ChatMessage): (r: Chat)
    ensures r.messages == chat.messages + [reply] && r.input == chat.input
  {
    chat.(messages := chat.messages + [reply])
  }

  /** When the reply arrives before the next send, the as-written handler is `HandleSend`. */
  lemma SendThenDeliver(chat: Chat)
    requires !AllWhitespace(chat.input)
    ensures var s := SendAsWritten(chat);
      Deliver(s.chat, s.pending.value) == HandleSend(chat)
  {
  }

  /** Two sends within the delay: the first reply and the second question share
      an id, so the transcript is no longer numbered in order. */
  lemma DoubleSendCollides(chat: Chat, second: string)
    requires !AllWhitespace(chat.input) && !AllWhitespace(second)
    ensures var s1 := SendAsWritten(chat);
      var s2 := SendAsWritten(s1.chat.(input := second));
      var done := Deliver(Deliver(s2.chat, s1.pending.value), s2.pending.value);
      && done.messages[|chat.messages| + 1].id == done.messages[|chat.messages| + 2].id
      && !NumberedInOrder(done.messages)
  {
    var n := |chat.messages|;
    var s1 := SendAsWritten(chat);
    var s2 := SendAsWritten(s1.chat.(input := second));
    var a1, a2 := s1.pending.value, s2.pending.value;
    var u1, u2 := ChatMessage(n + 1, chat.input, User), ChatMessage(n + 2, second, User);
    assert s2.chat.messages == chat.messages + [u1, u2];
    var done := Deliver(Deliver(s2.chat, a1), a2);
    assert done.messages == chat.messages + [u1, u2, a1, a2];
    assert a1.id == n + 2;
    SharedIdBreaksNumbering(done.messages, n + 1);
  }

  lemma SharedIdBreaksNumbering(m: seq<ChatMessage>, i: nat)
    requires i + 1 < |m| && m[i].id == m[i + 1].id
    ensures !NumberedInOrder(m)
  {
    assert m[i].id != i + 1 || m[i + 1].id != i + 2;
  }

  /** The corrected send: the user message is numbered now and only the reply
      text is scheduled. */
  datatype Scheduled = Scheduled(chat: Chat, reply: Option<string>)

  function SendFixed(chat: Chat): (r: Scheduled)
    ensures AllWhitespace(chat.input) ==> r == Scheduled(chat, None)
    ensures !AllWhitespace(chat.input) ==> r.reply == Some(GetAutoReply(chat.input))
    ensures NumberedInOrder(chat.messages) ==> NumberedInOrder(r.chat.messages)
  {
    if AllWhitespace(chat.input) then Scheduled(chat, None)
    else
      var user := ChatMessage(|chat.messages| + 1, chat.input, User);
      AppendKeepsNumbering(chat.messages, user);
      Scheduled(Chat(chat.messages + [user], []), Some(GetAutoReply(chat.input)))
  }

  /** The corrected timer: the reply is numbered from the transcript as it is
      when it fires, as a functional update `prev => [...prev, …]` would. */
  function DeliverFixed(chat: Chat, text: string): (r: Chat)
    ensures NumberedInOrder(chat.messages) ==> NumberedInOrder(r.messages)
    ensures |r.messages| == |chat.messages| + 1 && r.messages[..|chat.messages|] == chat.messages
    ensures r.messages[|chat.messages|] == ChatMessage(|chat.messages| + 1, text, Bot)
  {
    var reply := ChatMessage(|chat.messages| + 1, text, Bot);
    AppendKeepsNumbering(chat.messages, reply);
    chat.(messages := chat.messages + [reply])
  }

  lemma AppendKeepsNumbering(m: seq<ChatMessage>, x: ChatMessage)
    requires x.id == |m| + 1
    ensures NumberedInOrder(m) ==> NumberedInOrder(m + [x])
  {
  }

  /** With the correction, any interleaving of sends and deliveries keeps the ids
      in order; replies arriving before the next send give `HandleSend`. */
  lemma FixedSendThenDeliver(chat: Chat)
    requires !AllWhitespace(chat.input)
    ensures var s := SendFixed(chat);
      DeliverFixed(s.chat, s.reply.value) == HandleSend(chat)
  {
  }
}
